=== FILE: README.md ===
# A Dafny model of a small regex-driven JSON decoder

The system is a single-file Python JSON decoder (`json_parser.py`). It works in four stages:

1. **File check and whitespace normalisation.** `valid_json_file` and `read_json` check the path. `remove_whitespace` deletes every whitespace run that has an even number of `"` after it.
2. **Lexer.** `lexer.tokenize` finds six token kinds with regular expressions: opening bracket, colon, separator, key, value and closing bracket. It records a token for every match, classifying each value with `check_type`, and then bubble-sorts the tokens by start position.
3. **Structural check.** `parse_error` returns 0 to accept the token sequence or 1 to reject it.
4. **Materialisation.** `parser.value_parse` converts every value token with `parse_string`, then builds `dict(zip(keys, values))`.

This project models stages 1, 3 and 4 as written, and the part of stage 2 that assembles and sorts tokens. The regular-expression matches are an input (`Lexer.Matches`).

Modules, one file each:

| file | module | models |
|---|---|---|
| `wrappers.dfy` | `Wrappers`, `Errors` | `Option`, `Result`; the four ways a decode fails |
| `text.dfy` | `Text` | the `str` operations used: `isdigit`, `lower`, `split`, `strip("[]")`, `int()` |
| `file_check.dfy` | `FileCheck` | `valid_json_file`, `read_json` (file contents as a parameter) |
| `whitespace.dfy` | `Whitespace` | `remove_whitespace` |
| `value_types.dfy` | `ValueTypes` | `check_type` |
| `lexer.dfy` | `Lexer` | token assembly, with its stale `value_type`, and the bubble sort of `tokenize` |
| `validator.dfy` | `Validator` | `parse_error` |
| `materializer.dfy` | `Materializer` | `parse_string`; its object branch is a parameter |
| `parser.dfy` | `Parser` | `parser.value_parse` and Python `dict`/`zip` |

Errors that end the program in the source become `Result` values:

| source | Dafny error |
|---|---|
| `sys.exit` after a failed extension check | `InvalidFileExtension` |
| `sys.exit` after `parse_error` returns 1 | `StructuralParseError` |
| the `int()` conversion failing on a numeric value | `NumericConversionError` |
| the `IndexError` that `parse_error` raises on a trailing key | `TokenIndexOutOfRange` |

The behaviours below depart from what a strict JSON decoder does. The model follows the code as written, and each behaviour has a lemma:

- **`parse_error` accepts if any one key is well placed.** The comment above it (json_parser.py:153) says it checks that the tokens come in a valid JSON order, and JSON's grammar puts every key after `{` or `,` and before `:`; the loop instead returns 0 at the first key so placed. The predecessor of index 0 is read cyclically from the end of the list. The test for value tokens sits inside the key branch, so it can never succeed. See `Validator.ParseError` and `Validator.ParseErrorQuirks`.
- **`parse_error` accepts an unterminated object** such as `{"a":1`, which a strict JSON decoder rejects because the object is never closed. See `Parser.UnterminatedAccepted`.
- **A list value `[]` becomes `[""]`, not an empty list**, because `split` always yields at least one piece. See `Materializer.EmptyListQuirk`.
- **`dict(zip(...))` gives up two guarantees.** Keys beyond the number of values are dropped, and for a repeated key the last value wins. See `Parser.ValueParseKeys` and `Parser.DuplicateKeyLastValueWins`.
- **A closing bracket carries a stale value type**: the type of the last value match. See `Lexer.AssembleProvenance`.

## Model

| member | source | states |
|---|---|---|
| FileCheck.ValidJsonFile | json_parser.py:37-44 | the code is 0 or 1, and 0 only for an argument longer than five characters ending in `.json` |
| FileCheck.ValidJsonFileStem | json_parser.py:37-44 | `stem + ".json"` is accepted exactly when the stem is non-empty, so `.json` alone is refused |
| FileCheck.ReadJson | json_parser.py:51-66 | the error comes from the extension check and only from it; on success the normalised text keeps every non-whitespace character in order and every quote, and is what a left-to-right string scan leaves: whitespace goes outside quoted text and stays inside it, with the scan starting inside a string when the quote count is odd |
| FileCheck.FileTypeTestCases | json_parser.py:37-66 | `correct.json` is read; `json.txt` fails with InvalidFileExtension |
| Whitespace.RemoveWhitespace | json_parser.py:47-48 | the result is no longer than the input, has the same quote count and the same non-whitespace characters in the same order |
| Whitespace.RemoveWhitespaceIsScan | json_parser.py:47-48 | the lookahead rule ("an even number of quotes follows") equals a forward scan that tracks whether it is inside a string, with the scan starting inside a string when the total quote count is odd |
| Whitespace.BalancedQuotesStripOutside | json_parser.py:47-48 | with balanced quotes, exactly the whitespace outside string literals is removed |
| Whitespace.UnbalancedQuoteDropsQuotedSpace | json_parser.py:47-48 | with an unbalanced quote the rule removes whitespace that a left-to-right string scan would keep |
| Whitespace.SurvivingSpaceIsQuoted | json_parser.py:47-48 | every whitespace character left over has an odd number of quotes after it |
| Whitespace.RemoveWhitespaceFixed | json_parser.py:47-48 | a text whose whitespace all has an odd number of quotes after it is left unchanged |
| Whitespace.RemoveWhitespaceIdempotent | json_parser.py:47-48 | normalising twice equals normalising once |
| ValueTypes.CheckType | json_parser.py:69-95 | each class holds exactly when its own test holds, since no text passes two tests: numeric for digits; boolean for true/false in any case; object and list for bracketed text; none for null; string otherwise |
| ValueTypes.CheckTypeIgnoresCase | json_parser.py:69-95 | lower-casing the text never changes its class |
| ValueTypes.CheckTypeExamples | json_parser.py:69-95 | `123` is numeric; `true` and `FALSE` are boolean; `{}` is object; `[]` is list; `null` and `NULL` are none |
| ValueTypes.CheckTypeStringExamples | json_parser.py:69-95 | empty, signed, fractional and quoted texts are strings |
| Lexer.EmitKind | json_parser.py:118-138 | one token per match, in match order, shifted by one unless a bracket; the value type carried forward is the last value match's class, or unchanged for other kinds |
| Lexer.Assemble | json_parser.py:110-140 | the unsorted list holds exactly one token per match, summed over the six patterns; AssembleLayout and AssembleProvenance say which token each match becomes |
| Lexer.AssembleLayout | json_parser.py:110-140 | the unsorted list is the tokens of the six patterns in pattern order; only value tokens and closing brackets carry a class |
| Lexer.AssembleProvenance | json_parser.py:110-140 | every assembled token comes from a match of its own pattern, with the value type the loop held at that point; there is one token per match |
| Lexer.BubblePass | json_parser.py:144-148 | one run of the inner loop up to `hi`, swapping neighbours only when the right one starts strictly earlier, permutes the tokens, keeps tokens with equal starts in their relative order, leaves the sorted tail after `hi` alone, and leaves at `hi` a token starting no earlier than any before it |
| Lexer.BubbleSort | json_parser.py:142-148 | the result is a permutation sorted by start, and tokens with equal starts keep their relative order (stable) |
| Lexer.Tokenize | json_parser.py:104-151 | the output is the assembled tokens, sorted stably by start, each one traceable to its match |
| Validator.ScanKeys | json_parser.py:155-166 | the loop returns 0 exactly when some key from index `i` on has an opening bracket or separator before it (read cyclically) and a colon after it; it raises IndexError exactly when none does and the last token is a key so preceded |
| Validator.ParseError | json_parser.py:154-166 | accepts exactly when the document is framed by an opening and a closing bracket or some key is well placed; the IndexError and reject cases are characterised without the loop |
| Validator.TwoTokensPassOnlyWhenFramed | json_parser.py:154-166 | a two-token sequence passes only as `[opening, closing]` |
| Validator.ParseErrorQuirks | json_parser.py:154-166 | a lone `:value,` is rejected because the value test is unreachable; a key at index 0 passes through the cyclic predecessor; `[separator, key]` raises IndexError; the empty sequence is rejected |
| Materializer.StripQuotes | json_parser.py:172-173 | the substitution removes at most one quote from each end: a text quoted at both ends loses exactly those two; a text quoted only at the front (a lone `"` included) loses just the first character; a text quoted only at the back loses just the last; a text with no quote at either end is unchanged |
| Materializer.StripQuotesOfQuoted | json_parser.py:172-173 | a quoted text loses exactly its two enclosing quotes |
| Materializer.StripQuotesAtMostOne | json_parser.py:172-173 | each alternative of the pattern removes one character only: `""a""` keeps its inner quotes, and a lone `"` becomes the empty text |
| Materializer.ListPieces | json_parser.py:205-208 | stripping brackets and splitting on commas gives one piece per comma plus one, each no longer than the value text |
| Materializer.ListPiecesShorter | json_parser.py:205-220 | for text classed as a list every piece is at least two characters shorter than the list text, because both enclosing brackets are stripped, so converting the pieces recursively terminates |
| Materializer.Collect | json_parser.py:217-220 | the list conversion succeeds exactly when every element does; otherwise it fails with the first element's error |
| Materializer.ParseString | json_parser.py:169-229 | string loses its outer quotes; numeric converts exactly when all characters are digits, to their decimal value; boolean is true exactly for `true` in any case; none gives None; object of length at most 2 gives `{}`, and a longer one yields the nested parse's members as a dictionary, or passes on the nested parse's error; list is handled by ParseList |
| Materializer.ParseList | json_parser.py:202-223 | the list has one element per piece; each element is its piece converted under its own class; the list succeeds exactly when every piece does, and otherwise fails with the error of the first failing piece |
| Materializer.ParseElement | json_parser.py:217-220 | a list element is converted under its own class: digit text becomes its integer, `true`/`false` in any case its boolean, `null` in any case None, and only an element wrapped in `{}` or `[]` can fail |
| Materializer.ParseClassifiedTotal | json_parser.py:169-229 | a value converted under its own `check_type` class never fails when nested objects do not fail |
| Materializer.NumericRoundTrip | json_parser.py:176-178 | the canonical decimal text of any natural number converts back to that number |
| Materializer.StringRoundTrip | json_parser.py:172-173 | any quoted text is classed as a string and converts back to the text between the quotes |
| Materializer.ListFromElements | json_parser.py:202-223 | a list text whose pieces convert to given values converts to exactly the list of those values |
| Materializer.EmptyListQuirk | json_parser.py:202-223 | `[]` converts to a one-element list holding the empty string |
| Materializer.DigitElements | json_parser.py:217-220 | list elements of one digit each become the integers they spell |
| Materializer.DigitListRoundTrip | json_parser.py:202-223 | a list `[d0,d1,...]` of single digits converts to the integers d0, d1, ... in order |
| Parser.OfKind | json_parser.py:258-260 | selecting the tokens of one type never yields more tokens than it was given |
| Parser.OfKindMembers | json_parser.py:258-260 | a token is selected exactly when it is in the list and has the requested type |
| Parser.OfKindAppend | json_parser.py:258-260 | selecting from a concatenation gives the concatenation of the selections, so the comprehensions keep token order |
| Parser.KeyTexts | json_parser.py:258 | there is at most one key text per token |
| Parser.KeyTextsMembers | json_parser.py:258 | every key token's text is among the keys, and every key is the text of some key token |
| Parser.MaterializeToken | json_parser.py:250-255 | a token with no class (the initial `''` value type) gives None; a token carrying the class of its own text converts exactly as a list element with that text would; only numeric, object and list conversions can fail |
| Parser.Zip | json_parser.py:262 | `zip` yields as many pairs as the shorter list has elements |
| Parser.UnzipZip | json_parser.py:262 | unzipping the pairs gives back that many leading keys and that many leading values |
| Parser.ZipKeys | json_parser.py:262 | a key is paired exactly when it sits at an index below both lengths |
| Parser.ValueParse | json_parser.py:237-265 | a structural reject or IndexError is returned as the error; an accepted document succeeds exactly when it has two tokens or every value token converts, and otherwise fails with the error of its first failing value in document order; the resulting dict has unique keys and no more entries than key tokens |
| Parser.ValueParseTwoTokens | json_parser.py:247-248 | a two-token document parses to `{}` exactly when it is `[opening, closing]` |
| Parser.ValueParseIsDictOfPairs | json_parser.py:250-262 | an accepted document is `dict` of its key texts zipped with its converted values |
| Parser.ValueParseEntry | json_parser.py:258-262 | the i-th key maps to the i-th converted value unless a later paired key repeats it |
| Parser.ValueParseKeys | json_parser.py:258-262 | a key is present exactly when it is among the first min(#keys, #values) key texts |
| Parser.ValueParseTotal | json_parser.py:237-265 | for tokens the lexer produced, with nested objects converting, parsing succeeds exactly when the structural check accepts |
| Parser.DocumentRoundTrip | json_parser.py:237-265 | a bracketed document written from members with distinct keys, whose values convert, parses back to exactly those keys and values in order |
| Parser.SampleDocument | json_parser.py:237-265 | a document `{"a":n,"b":"x"}` with distinct keys, `n` written in decimal and `x` quoted, parses to `a: n, b: x` in that order |
| Parser.SingleMember | json_parser.py:237-265 | an accepted document with exactly one key and one value parses to that single pair |
| Parser.UnterminatedAccepted | json_parser.py:237-265 | an opening bracket followed by one member and no closing bracket is accepted and parses to that member |
| Parser.DictOf | json_parser.py:262 | `dict(pairs)` has unique keys and no more entries than there are pairs; DictOfLookup, DictOfKeys and DictOfInsertionOrder fix its contents |
| Parser.Insert | json_parser.py:262 | `d[k] = v` keeps keys unique, replaces in place when the key is present, appends otherwise, and leaves the other entries unchanged |
| Parser.InsertKeepsOthers | json_parser.py:262 | storing under one key leaves every other key's value unchanged |
| Parser.DictOfLookup | json_parser.py:262 | in `dict(pairs)` a key maps to v exactly when v is its last pair's value |
| Parser.DictOfKeys | json_parser.py:262 | `dict(pairs)` holds exactly the keys that occur in the pairs |
| Parser.DictOfInsertionOrder | json_parser.py:262 | `dict(pairs)` lists its keys in the order in which each first occurs |
| Parser.DictOfDistinct | json_parser.py:262 | pairs with distinct keys come through `dict` unchanged |
| Parser.DuplicateKeyLastValueWins | json_parser.py:262 | `{"a":1,"b":2,"a":3}` becomes `{"a": 3, "b": 2}` |
| Text.LowerKeepsDigits | json_parser.py:72-76 | `isdigit` holds of a text exactly when it holds of its lower-cased form, and digit text is unchanged by lower-casing |
| Text.Lower | json_parser.py:76-88 | lower-casing keeps the length, turns each ASCII upper-case letter into its lower-case partner (code point plus 32, so `T` becomes `t`), leaves no upper-case letter behind, and changes no other character |
| Text.Split | json_parser.py:208 | `split(',')` yields one piece per separator plus one, and no piece contains the separator |
| Text.JoinSplit | json_parser.py:208 | joining the pieces of a split restores the text |
| Text.SplitJoin | json_parser.py:208 | splitting a join of separator-free parts restores the parts |
| Text.StripBrackets | json_parser.py:205 | `strip("[]")` removes the longest runs of `[`/`]` at both ends and leaves a slice whose ends are not brackets |
| Text.StripBracketsOfWrapped | json_parser.py:205 | wrapping a bracket-free-ended text in `[`..`]` and stripping gives it back |
| Text.DecimalValue | json_parser.py:178 | `int()` of digit text that does not start with `0` is positive |
| Text.DecimalText | json_parser.py:176-178 | `str(n)` is digit text with no leading zero unless it is `0` itself |
| Text.DecimalValueOfText | json_parser.py:176-178 | `int(str(n)) == n` |
| Text.DecimalTextOfValue | json_parser.py:176-178 | `str(int(s)) == s` for digit strings without a leading zero |

## Left out

- The six regular expressions (json_parser.py:16-31) and `re.finditer` are not modelled. Their matches are the input `Lexer.Matches`, because Dafny has no regular-expression engine. As written, the closing-bracket pattern `}$|//]$` can never match a bare `]`.
- The removal of brackets before matching, and the resulting offset shift (json_parser.py:108, 116), are modelled only as the plus-one shift of non-bracket positions. The matches are taken as given.
- The object branch of `parse_string` (json_parser.py:190-199) calls the lexer again on the regex matches of the nested text. It is the parameter `ObjectParser`.
- Materializer.ParseString: the `float()` fallback for numeric text (json_parser.py:179-180) is not modelled. Every caller passes the class `check_type` gave the same text (json_parser.py:127, 219), so the numeric branch only sees text that `isdigit` accepts. Texts such as `-5`, ` 7` or `1_0`, which `int()` would also accept, are classed string and never reach it. Called directly under the numeric class with text that neither `int()` nor `float()` accepts (`abc`, the empty text), Python raises an uncaught `ValueError` at line 180, which `NumericConversionError` stands for; with text only `float()` accepts (`1.5`), Python returns a float where the model gives `NumericConversionError`.
- Materializer.ParseString: Python 3.11 and later (and the matching security releases of 3.7-3.10) refuse `int()` on digit text longer than 4300 characters (`sys.int_info.default_max_str_digits`); the `except ValueError` at json_parser.py:179 then returns `float(value)`, which is `inf` or a rounded float. The model has no such limit and gives the exact integer for digit text of any length, because the limit is an interpreter setting rather than part of the decoder.
- Materializer.NumericRoundTrip: states `int(str(n)) == n` for every natural number; under the interpreter digit limit above, this holds in Python only for numbers of at most 4300 digits.
- Text.DecimalValue: `int()` on digit text of any length; the interpreter digit limit above is not modelled.
- Text.IsDigit, Text.LowerChar, Whitespace.IsSpace: only ASCII is modelled. These stand for Python's Unicode-aware `isdigit`, `lower` and `\s`; for ASCII, whitespace is codes 9-13, 28-31 and 32.
- `"$` in `re.sub` also matches before a final newline. That case is not modelled because value texts never contain a newline.
- Opening the file, reading it and closing it (json_parser.py:61-63) are not modelled. The contents are a parameter of `ReadJson`.
- `print`, `sys.exit` messages and return-code printing are not modelled. Failures are `Result` errors instead.
- The `JSON` facade class (json_parser.py:267-284) and the command-line entry point (json_parser.py:287-297) are not modelled. They only wire the stages together and print.
- `Parser.ValueParse`: the source writes each converted value into its token dictionary (`item['value'] = ...`, json_parser.py:255). The model returns the dict without altering the tokens. The written values are visible only through the `JSON` facade, whose `tokens()` returns the same list (json_parser.py:277-281) and whose command-line entry point prints it (json_parser.py:294); the facade is not modelled.
- Lexer.Token: token dictionaries also carry the pattern text (`token_pattern`). It is omitted because no modelled code reads it.

=== FILE: file_check.dfy ===
/** valid_json_file and read_json. The file system is outside the model: the
    file's text is a parameter. */
module FileCheck {
  import opened Wrappers
  import opened Errors
  import opened Whitespace

  /** Return code 0 when the argument is longer than five characters and ends
      in ".json", 1 otherwise. */
  function ValidJsonFile(arg: string): (code: int)
    ensures code == 0 || code == 1
    ensures code == 0 ==> |arg| > 5 && arg == arg[..|arg| - 5] + ".json"
  {
    if |arg| > 5 && arg[|arg| - 5..] == ".json" then 0 else 1
  }

  /** Code 0 exactly for a non-empty stem followed by ".json". */
  lemma ValidJsonFileStem(stem: string)
    ensures ValidJsonFile(stem + ".json") == (if |stem| > 0 then 0 else 1)
  {
    var arg := stem + ".json";
    assert arg[|arg| - 5..] == ".json";
  }

  /** read_json with the file's text supplied: the extension check first, then
      the whitespace normaliser over the contents. */
  function ReadJson(arg: string, contents: string): (r: Result<string, Error>)
    ensures r.Err? <==> ValidJsonFile(arg) == 1
    ensures r.Err? ==> r.error == InvalidFileExtension
    ensures r.Ok? ==> NonSpace(r.value) == NonSpace(contents)
    ensures r.Ok? ==> CountQuotes(r.value) == CountQuotes(contents)
    ensures r.Ok? ==> r.value == StripOutsideStrings(contents, !Even(CountQuotes(contents)))
  {
    RemoveWhitespaceIsScan(contents);
    if ValidJsonFile(arg) == 1 then Err(InvalidFileExtension)
    else Ok(RemoveWhitespace(contents))
  }

  /** The two arguments of the repository's file-type test. */
  lemma FileTypeTestCases(contents: string)
    ensures ReadJson("correct.json", contents).Ok?
    ensures ReadJson("json.txt", contents) == Err(InvalidFileExtension)
    ensures ValidJsonFile(".json") == 1
  {
    ValidJsonFileStem("correct");
    assert "correct" + ".json" == "correct.json";
    assert "json.txt"[3..] != ".json";
  }
}

=== FILE: lexer.dfy ===
/** The part of lexer.tokenize that runs after the regular expressions: the
    matches of each pattern, taken as input, are turned into token records in
    pattern order and then bubble-sorted by start offset. */
module Lexer {
  import opened Wrappers
  import opened ValueTypes

  datatype Kind = OpeningBracket | Colon | Separator | Key | Value | ClosingBracket

  /** One regular-expression match: `item.group()` and `item.span()`. */
  datatype Match = Match(text: string, start: nat, end: nat)

  /** The per-pattern matches. Brackets were matched on the raw text, every
      other pattern on the text with its brackets removed. */
  datatype Matches = Matches(
    opening: seq<Match>,
    colon: seq<Match>,
    separator: seq<Match>,
    key: seq<Match>,
    value: seq<Match>,
    closing: seq<Match>)

  /** A token record. `valueType` is None while the source's `value_type`
      variable still holds its initial ''. */
  datatype Token = Token(text: string, kind: Kind, valueType: Option<ValueType>, start: nat, end: nat)

  predicate IsBracket(k: Kind) {
    k == OpeningBracket || k == ClosingBracket
  }

  /** Offset correction: non-bracket matches were found on text one character
      shorter at the front. */
  function Shift(k: Kind): nat {
    if IsBracket(k) then 0 else 1
  }

  function MakeToken(kind: Kind, m: Match, vt: Option<ValueType>): Token {
    Token(m.text, kind, vt, m.start + Shift(kind), m.end + Shift(kind))
  }

  function MatchesOf(m: Matches, k: Kind): seq<Match> {
    match k
    case OpeningBracket => m.opening
    case Colon => m.colon
    case Separator => m.separator
    case Key => m.key
    case Value => m.value
    case ClosingBracket => m.closing
  }

  function MatchCount(m: Matches): nat {
    |m.opening| + |m.colon| + |m.separator| + |m.key| + |m.value| + |m.closing|
  }

  /** The inner loop over one pattern's matches. `value_type` is assigned only
      for value matches and never reset, so it is returned for the next
      pattern. */
  function EmitKind(kind: Kind, ms: seq<Match>, vt: Option<ValueType>): (r: (seq<Token>, Option<ValueType>))
    ensures |r.0| == |ms|
    ensures kind != Value ==> r.1 == vt
    ensures kind == Value ==> r.1 == (if |ms| == 0 then vt else Some(CheckType(ms[|ms| - 1].text)))
    ensures forall k :: 0 <= k < |ms| ==>
      r.0[k] == MakeToken(kind, ms[k], if kind == Value then Some(CheckType(ms[k].text)) else vt)
  {
    if ms == [] then ([], vt)
    else
      var vt0 := if kind == Value then Some(CheckType(ms[0].text)) else vt;
      var rest := EmitKind(kind, ms[1..], vt0);
      ([MakeToken(kind, ms[0], vt0)] + rest.0, rest.1)
  }

  /** The unsorted token list, as appended by the loops: the outer loop runs
      over the patterns in the order opening_bracket, colon, separator, key,
      value, closing_bracket, and `value_type` carries over from one to the
      next. */
  function Assemble(m: Matches): (r: seq<Token>)
    ensures |r| == MatchCount(m)
  {
    var (t0, v0) := EmitKind(OpeningBracket, m.opening, None);
    var (t1, v1) := EmitKind(Colon, m.colon, v0);
    var (t2, v2) := EmitKind(Separator, m.separator, v1);
    var (t3, v3) := EmitKind(Key, m.key, v2);
    var (t4, v4) := EmitKind(Value, m.value, v3);
    var (t5, _) := EmitKind(ClosingBracket, m.closing, v4);
    t0 + t1 + t2 + t3 + t4 + t5
  }

  /** `value_type` a value token gets: its own classification. */
  function LastValueType(values: seq<Match>): Option<ValueType> {
    if |values| == 0 then None else Some(CheckType(values[|values| - 1].text))
  }

  /** The value type a token of kind `k` carries: none for the patterns
      processed before `value`, its own classification for a value, and the
      stale classification of the LAST value match for a closing bracket. */
  function ExpectedValueType(m: Matches, k: Kind, text: string): Option<ValueType> {
    match k
    case Value => Some(CheckType(text))
    case ClosingBracket => LastValueType(m.value)
    case _ => None
  }

  /** Where a token came from: a match of its own pattern, shifted by one
      unless it is a bracket, with the value type the loop had at that time. */
  predicate FromMatch(m: Matches, t: Token) {
    && t.start >= Shift(t.kind)
    && t.end >= Shift(t.kind)
    && Match(t.text, t.start - Shift(t.kind), t.end - Shift(t.kind)) in MatchesOf(m, t.kind)
    && t.valueType == ExpectedValueType(m, t.kind, t.text)
  }

  function EachToken(kind: Kind, ms: seq<Match>, vt: Option<ValueType>): seq<Token> {
    seq(|ms|, k requires 0 <= k < |ms| => MakeToken(kind, ms[k], vt))
  }

  function ValueTokens(ms: seq<Match>): seq<Token> {
    seq(|ms|, k requires 0 <= k < |ms| => MakeToken(Value, ms[k], Some(CheckType(ms[k].text))))
  }

  lemma EmitKindPlain(kind: Kind, ms: seq<Match>, vt: Option<ValueType>)
    requires kind != Value
    ensures EmitKind(kind, ms, vt) == (EachToken(kind, ms, vt), vt)
  {
    var e := EmitKind(kind, ms, vt);
    assert e.0 == EachToken(kind, ms, vt);
  }

  lemma EmitKindValues(ms: seq<Match>, vt: Option<ValueType>)
    ensures EmitKind(Value, ms, vt) == (ValueTokens(ms), if |ms| == 0 then vt else LastValueType(ms))
  {
    var e := EmitKind(Value, ms, vt);
    assert e.0 == ValueTokens(ms);
  }

  /** The assembled list, pattern by pattern, without the threaded state. */
  lemma AssembleLayout(m: Matches)
    ensures Assemble(m) ==
      EachToken(OpeningBracket, m.opening, None)
      + EachToken(Colon, m.colon, None)
      + EachToken(Separator, m.separator, None)
      + EachToken(Key, m.key, None)
      + ValueTokens(m.value)
      + EachToken(ClosingBracket, m.closing, LastValueType(m.value))
  {
    EmitKindPlain(OpeningBracket, m.opening, None);
    EmitKindPlain(Colon, m.colon, None);
    EmitKindPlain(Separator, m.separator, None);
    EmitKindPlain(Key, m.key, None);
    EmitKindValues(m.value, None);
    EmitKindPlain(ClosingBracket, m.closing, LastValueType(m.value));
  }

  lemma EachTokenFromMatch(m: Matches, kind: Kind, vt: Option<ValueType>)
    requires kind != Value
    requires vt == ExpectedValueType(m, kind, [])
    ensures forall t :: t in EachToken(kind, MatchesOf(m, kind), vt) ==> FromMatch(m, t)
  {
    var ts := EachToken(kind, MatchesOf(m, kind), vt);
    forall t | t in ts
      ensures FromMatch(m, t)
    {
      var k :| 0 <= k < |ts| && ts[k] == t;
      assert MatchesOf(m, kind)[k] == Match(t.text, t.start - Shift(kind), t.end - Shift(kind));
    }
  }

  lemma ValueTokensFromMatch(m: Matches)
    ensures forall t :: t in ValueTokens(m.value) ==> FromMatch(m, t)
  {
    var ts := ValueTokens(m.value);
    forall t | t in ts
      ensures FromMatch(m, t)
    {
      var k :| 0 <= k < |ts| && ts[k] == t;
      assert m.value[k] == Match(t.text, t.start - 1, t.end - 1);
    }
  }

  /** Every assembled token comes from a match of its pattern, and the list has
      one token per match. */
  lemma AssembleProvenance(m: Matches)
    ensures |Assemble(m)| == MatchCount(m)
    ensures forall t :: t in Assemble(m) ==> FromMatch(m, t)
  {
    AssembleLayout(m);
    EachTokenFromMatch(m, OpeningBracket, None);
    EachTokenFromMatch(m, Colon, None);
    EachTokenFromMatch(m, Separator, None);
    EachTokenFromMatch(m, Key, None);
    ValueTokensFromMatch(m);
    EachTokenFromMatch(m, ClosingBracket, LastValueType(m.value));
  }

  // ---------------------------------------------------------------------
  // Bubble sort by position_start

  predicate SortedByStart(s: seq<Token>) {
    forall i, j :: 0 <= i < j < |s| ==> s[i].start <= s[j].start
  }

  /** The tokens of `s` that start at `p`, in order. Two lists with the same
      such sublist for every `p` differ only in how tokens with different
      starts are interleaved. */
  function WithStart(s: seq<Token>, p: nat): (r: seq<Token>)
    ensures |r| <= |s|
  {
    if s == [] then [] else (if s[0].start == p then [s[0]] else []) + WithStart(s[1..], p)
  }

  lemma {:induction false} WithStartAppend(a: seq<Token>, b: seq<Token>, p: nat)
    ensures WithStart(a + b, p) == WithStart(a, p) + WithStart(b, p)
  {
    if a == [] {
      assert a + b == b;
    } else {
      var ab := a + b;
      assert ab[0] == a[0];
      assert ab[1..] == a[1..] + b;
      WithStartAppend(a[1..], b, p);
      var h := if a[0].start == p then [a[0]] else [];
      assert WithStart(ab, p) == h + WithStart(ab[1..], p);
      assert WithStart(a, p) == h + WithStart(a[1..], p);
    }
  }

  /** Swapping neighbours with different starts changes no WithStart list. */
  lemma SwapKeepsWithStart(s: seq<Token>, j: nat, p: nat)
    requires j + 1 < |s|
    requires s[j].start != s[j + 1].start
    ensures WithStart(s[j := s[j + 1]][j + 1 := s[j]], p) == WithStart(s, p)
  {
    var t := s[j := s[j + 1]][j + 1 := s[j]];
    assert s == s[..j] + [s[j], s[j + 1]] + s[j + 2..];
    assert t == s[..j] + [s[j + 1], s[j]] + s[j + 2..];
    WithStartAppend(s[..j] + [s[j], s[j + 1]], s[j + 2..], p);
    WithStartAppend(s[..j], [s[j], s[j + 1]], p);
    WithStartAppend(s[..j] + [s[j + 1], s[j]], s[j + 2..], p);
    WithStartAppend(s[..j], [s[j + 1], s[j]], p);
    assert [s[j], s[j + 1]][1..] == [s[j + 1]];
    assert [s[j + 1], s[j]][1..] == [s[j]];
  }

  /** Every token before index `lo` starts no later than any token from `lo` on. */
  predicate Partitioned(s: seq<Token>, lo: nat) {
    forall a, b :: 0 <= a < lo <= b < |s| ==> s[a].start <= s[b].start
  }

  predicate SortedFrom(s: seq<Token>, lo: nat) {
    forall a, b :: lo <= a < b < |s| ==> s[a].start <= s[b].start
  }

  ghost predicate SameWithStart(r: seq<Token>, s: seq<Token>) {
    forall p :: WithStart(r, p) == WithStart(s, p)
  }

  /** One swap of the inner loop keeps the pass's invariants. */
  lemma SwapStep(r: seq<Token>, j: nat, hi: nat, s: seq<Token>)
    requires j < hi < |r| == |s|
    requires r[j + 1].start < r[j].start
    requires multiset(r) == multiset(s) && SameWithStart(r, s)
    requires r[hi + 1..] == s[hi + 1..]
    requires Partitioned(r, hi + 1)
    requires forall a :: 0 <= a < j ==> r[a].start <= r[j].start
    ensures var t := r[j := r[j + 1]][j + 1 := r[j]];
            && multiset(t) == multiset(s) && SameWithStart(t, s)
            && t[hi + 1..] == s[hi + 1..]
            && Partitioned(t, hi + 1)
            && forall a :: 0 <= a < j + 1 ==> t[a].start <= t[j + 1].start
  {
    var t := r[j := r[j + 1]][j + 1 := r[j]];
    forall p
      ensures WithStart(t, p) == WithStart(s, p)
    {
      SwapKeepsWithStart(r, j, p);
    }
    assert t[hi + 1..] == r[hi + 1..];
  }

  /** One pass of the inner loop over indices 0..hi: afterwards the token at
      `hi` starts no earlier than any token before it. */
  method BubblePass(s: seq<Token>, hi: nat) returns (r: seq<Token>)
    requires hi < |s|
    requires Partitioned(s, hi + 1)
    ensures |r| == |s| && multiset(r) == multiset(s) && SameWithStart(r, s)
    ensures r[hi + 1..] == s[hi + 1..]
    ensures Partitioned(r, hi + 1)
    ensures forall a :: 0 <= a <= hi ==> r[a].start <= r[hi].start
  {
    r := s;
    var j := 0;
    while j < hi
      invariant 0 <= j <= hi && |r| == |s|
      invariant multiset(r) == multiset(s) && SameWithStart(r, s)
      invariant r[hi + 1..] == s[hi + 1..]
      invariant Partitioned(r, hi + 1)
      invariant forall a :: 0 <= a < j ==> r[a].start <= r[j].start
    {
      if r[j + 1].start < r[j].start {
        SwapStep(r, j, hi, s);
        r := r[j := r[j + 1]][j + 1 := r[j]];
      }
      j := j + 1;
    }
  }

  /** The source's bubble sort: neighbours are swapped only when the right one
      starts strictly earlier, so tokens with equal starts keep their order. */
  method BubbleSort(s: seq<Token>) returns (r: seq<Token>)
    ensures |r| == |s|
    ensures multiset(r) == multiset(s)
    ensures SortedByStart(r)
    ensures forall p :: WithStart(r, p) == WithStart(s, p)
  {
    r := s;
    var n := |r|;
    var i := 0;
    while i < n
      invariant 0 <= i <= n && |r| == n
      invariant multiset(r) == multiset(s) && SameWithStart(r, s)
      invariant SortedFrom(r, n - i)
      invariant Partitioned(r, n - i)
    {
      var hi := n - i - 1;
      var r' := BubblePass(r, hi);
      assert forall x :: hi < x < n ==> r'[x] == r[x] by {
        forall x | hi < x < n ensures r'[x] == r[x] {
          assert r'[x] == r'[hi + 1..][x - hi - 1];
        }
      }
      r := r';
      i := i + 1;
    }
  }

  /** lexer.tokenize with the regular-expression matches as input. */
  method Tokenize(m: Matches) returns (tokens: seq<Token>)
    ensures |tokens| == MatchCount(m)
    ensures multiset(tokens) == multiset(Assemble(m))
    ensures SortedByStart(tokens)
    ensures forall p :: WithStart(tokens, p) == WithStart(Assemble(m), p)
    ensures forall t :: t in tokens ==> FromMatch(m, t)
  {
    AssembleProvenance(m);
    tokens := BubbleSort(Assemble(m));
    forall t | t in tokens
      ensures FromMatch(m, t)
    {
      assert t in multiset(tokens);
    }
  }
}

=== FILE: materializer.dfy ===
/** parse_string: turns one value text and its classification into a value.
    The object branch re-enters the regular-expression lexer, which is outside
    the model; it is a parameter. */
module Materializer {
  import opened Wrappers
  import opened Errors
  import opened Text
  import opened ValueTypes

  /** The Python values the decoder produces: None, bool, int, str, list, dict. */
  datatype Value =
    | Null
    | Bool(b: bool)
    | Int(i: int)
    | Str(s: string)
    | Array(items: seq<Value>)
    | Dictionary(entries: seq<(string, Value)>)

  /** A Python dict: keys unique, in insertion order. */
  type Dict = seq<(string, Value)>

  /** What `parser(lexer(tokens, remove_whitespace(text)).tokenize()).value_parse()`
      yields for a nested object's text. */
  type ObjectParser = string -> Result<Dict, Error>

  /** `re.sub('^"|"$', '', v)`: at most one '"' goes from each end. A lone '"'
      is consumed by the leading alternative. */
  function StripQuotes(v: string): (r: string)
    ensures |r| <= |v|
    ensures |v| >= 2 && v[0] == '"' && v[|v| - 1] == '"' ==> r == v[1..|v| - 1]
    ensures (v == [] || v[0] != '"') && (v == [] || v[|v| - 1] != '"') ==> r == v
    ensures |v| > 0 && v[0] == '"' && (|v| == 1 || v[|v| - 1] != '"') ==> r == v[1..]
    ensures |v| > 0 && v[0] != '"' && v[|v| - 1] == '"' ==> r == v[..|v| - 1]
  {
    var rest := if |v| > 0 && v[0] == '"' then v[1..] else v;
    if |rest| > 0 && rest[|rest| - 1] == '"' then rest[..|rest| - 1] else rest
  }

  lemma StripQuotesOfQuoted(s: string)
    ensures StripQuotes("\"" + s + "\"") == s
  {
  }

  lemma StripQuotesAtMostOne()
    ensures StripQuotes("\"\"a\"\"") == "\"a\""
    ensures StripQuotes("\"") == []
  {
  }

  /** The list elements: brackets stripped from both ends, then split on every
      comma. */
  function ListPieces(v: string): (pieces: seq<string>)
    ensures |pieces| == CountChar(StripBrackets(v), ',') + 1
    ensures forall k :: 0 <= k < |pieces| ==> |pieces[k]| <= |v|
    ensures forall k :: 0 <= k < |pieces| ==> |pieces[k]| < |v| || CheckType(pieces[k]) != List
  {
    var pieces := Split(StripBrackets(v), ',');
    StripBracketsShortens(v);
    PiecesShorterOrNotList(v);
    pieces
  }

  /** A piece is as long as the list text only when nothing was stripped and
      there is no comma, and then it does not start with '['. */
  lemma PiecesShorterOrNotList(v: string)
    ensures var pieces := Split(StripBrackets(v), ',');
            forall k :: 0 <= k < |pieces| ==> |pieces[k]| < |v| || CheckType(pieces[k]) != List
  {
    var stripped := StripBrackets(v);
    var pieces := Split(stripped, ',');
    StripBracketsShortens(v);
    forall k | 0 <= k < |pieces| && |pieces[k]| >= |v|
      ensures CheckType(pieces[k]) != List
    {
      JoinSplit(stripped, ',');
      PieceOfFullLength(pieces, k, ',');
      assert pieces[k] == stripped;
    }
  }

  /** A piece as long as the joined text is the whole of it. */
  lemma {:induction false} PieceOfFullLength(parts: seq<string>, k: nat, sep: char)
    requires 0 <= k < |parts|
    requires |parts[k]| >= |Join(parts, sep)|
    ensures parts[k] == Join(parts, sep)
  {
    if |parts| > 1 {
      var tail := Join(parts[1..], sep);
      assert Join(parts, sep) == parts[0] + [sep] + tail;
      if k == 0 {
        assert false;
      } else {
        JoinLength(parts[1..], k - 1, sep);
        assert false;
      }
    }
  }

  lemma {:induction false} JoinLength(parts: seq<string>, k: nat, sep: char)
    requires 0 <= k < |parts|
    ensures |parts[k]| <= |Join(parts, sep)|
  {
    if |parts| > 1 && k > 0 {
      JoinLength(parts[1..], k - 1, sep);
    }
  }

  /** The first error among the results, or all their values. */
  function Collect(results: seq<Result<Value, Error>>): (r: Result<seq<Value>, Error>)
    ensures r.Ok? <==> forall k :: 0 <= k < |results| ==> results[k].Ok?
    ensures r.Ok? ==> |r.value| == |results| && forall k :: 0 <= k < |results| ==> results[k] == Ok(r.value[k])
    ensures r.Err? ==> exists k :: 0 <= k < |results| && results[k] == Err(r.error)
                        && forall j :: 0 <= j < k ==> results[j].Ok?
  {
    if results == [] then Ok([])
    else if results[0].Err? then Err(results[0].error)
    else
      match Collect(results[1..])
      case Err(e) =>
        var k :| 0 <= k < |results[1..]| && results[1..][k] == Err(e) && forall j :: 0 <= j < k ==> results[1..][j].Ok?;
        assert results[k + 1] == Err(e);
        Err(e)
      case Ok(vs) => Ok([results[0].value] + vs)
  }

  /** Termination: a list text may yield one piece of its own length (when
      it had nothing to strip), but that piece is then not a list. */
  function Rank(vt: ValueType): nat {
    if vt == List then 3 else 0
  }

  /** parse_string. */
  function ParseString(v: string, vt: ValueType, nested: ObjectParser): (r: Result<Value, Error>)
    decreases |v|, Rank(vt)
    ensures vt == StringType ==> r == Ok(Str(StripQuotes(v)))
    ensures vt == Numeric ==> (r.Ok? <==> IsDigits(v))
    ensures vt == Numeric && IsDigits(v) ==> r == Ok(Int(DecimalValue(v)))
    ensures vt == Boolean ==> r.Ok? && r.value.Bool? && (r.value.b <==> Lower(v) == "true")
    ensures vt == NoneType ==> r == Ok(Null)
    ensures vt == Object && |v| <= 2 ==> r == Ok(Dictionary([]))
    ensures vt == Object && |v| > 2 ==> (r.Ok? <==> nested(v).Ok?)
    ensures vt == Object && |v| > 2 ==>
              r == (if nested(v).Ok? then Ok(Dictionary(nested(v).value)) else Err(nested(v).error))
    ensures vt == List ==> r == ParseList(v, nested)
  {
    match vt
    case StringType => Ok(Str(StripQuotes(v)))
    case Numeric =>
      if IsDigits(v) then
        Ok(Int(DecimalValue(v)))
      else Err(NumericConversionError)
    case Boolean => Ok(Bool(Lower(v) == "true"))
    case Object =>
      if |v| > 2 then
        (match nested(v)
         case Ok(d) => Ok(Dictionary(d))
         case Err(e) => Err(e))
      else Ok(Dictionary([]))
    case List => ParseList(v, nested)
    case NoneType => Ok(Null)
  }

  /** The list branch: strip, split, materialise each piece by its own
      classification, in order; the first failing element fails the list. */
  function ParseList(v: string, nested: ObjectParser): (r: Result<Value, Error>)
    decreases |v|, 2
    ensures var pieces := ListPieces(v);
            && (r.Ok? ==> r.value.Array? && |r.value.items| == |pieces|)
            && (r.Ok? <==> forall k :: 0 <= k < |pieces| ==> ParseElement(pieces[k], nested).Ok?)
            && (r.Ok? ==> forall k :: 0 <= k < |pieces| ==> ParseElement(pieces[k], nested) == Ok(r.value.items[k]))
            && (r.Err? ==> exists k :: 0 <= k < |pieces| && ParseElement(pieces[k], nested) == Err(r.error)
                             && forall j :: 0 <= j < k ==> ParseElement(pieces[j], nested).Ok?)
  {
    var pieces := ListPieces(v);
    var results := seq(|pieces|, k requires 0 <= k < |pieces| => ParseElement(pieces[k], nested));
    assert forall k :: 0 <= k < |pieces| ==> results[k] == ParseElement(pieces[k], nested);
    var c := Collect(results);
    if c.Ok? then Ok(Array(c.value)) else Err(c.error)
  }

  /** One list element, classified on its own text. */
  function ParseElement(piece: string, nested: ObjectParser): (r: Result<Value, Error>)
    decreases |piece|, Rank(CheckType(piece)) + 1
    ensures IsDigits(piece) ==> r == Ok(Int(DecimalValue(piece)))
    ensures IsBoolWord(piece) ==> r == Ok(Bool(Lower(piece) == "true"))
    ensures IsNullWord(piece) ==> r == Ok(Null)
    ensures r.Err? ==> Wrapped(piece, '{', '}') || Wrapped(piece, '[', ']')
  {
    ParseString(piece, CheckType(piece), nested)
  }

  /** Every list element is strictly shorter than the list text: at least the
      two enclosing brackets are gone. */
  lemma ListPiecesShorter(v: string)
    requires CheckType(v) == List
    ensures forall k :: 0 <= k < |ListPieces(v)| ==> |ListPieces(v)[k]| <= |v| - 2
  {
    StripBracketsShortens(v);
  }

  /** A value text classified by check_type always materialises when nested
      objects do: the numeric branch only ever sees digits. */
  lemma {:induction false} ParseClassifiedTotal(v: string, nested: ObjectParser)
    requires forall s :: nested(s).Ok?
    ensures ParseString(v, CheckType(v), nested).Ok?
    decreases |v|
  {
    if CheckType(v) == List {
      var pieces := ListPieces(v);
      ListPiecesShorter(v);
      forall k | 0 <= k < |pieces|
        ensures ParseElement(pieces[k], nested).Ok?
      {
        ParseClassifiedTotal(pieces[k], nested);
      }
    }
  }

  /** int() and str() are inverse on canonical decimal text. */
  lemma NumericRoundTrip(n: nat, nested: ObjectParser)
    ensures ParseString(DecimalText(n), CheckType(DecimalText(n)), nested) == Ok(Int(n))
  {
    DecimalValueOfText(n);
  }

  /** A quoted text always classifies as a string and loses exactly its two
      quotes. */
  lemma StringRoundTrip(s: string, nested: ObjectParser)
    ensures ParseString("\"" + s + "\"", CheckType("\"" + s + "\""), nested) == Ok(Str(s))
  {
    var q := "\"" + s + "\"";
    assert q[0] == '"' && !IsDigit(q[0]);
    WordsAreLetters(q);
    StripQuotesOfQuoted(s);
  }

  /** A list text whose pieces materialise to `vals` yields exactly `vals`. */
  lemma ListFromElements(v: string, vals: seq<Value>, nested: ObjectParser)
    requires |vals| == |ListPieces(v)|
    requires forall k :: 0 <= k < |vals| ==> ParseElement(ListPieces(v)[k], nested) == Ok(vals[k])
    ensures ParseString(v, List, nested) == Ok(Array(vals))
  {
    var r := ParseList(v, nested);
    assert r.Ok?;
    assert r.value.items == vals;
  }

  /** `[]` materialises to a one-element list holding the empty string: split
      always yields at least one piece. */
  lemma EmptyListQuirk(nested: ObjectParser)
    ensures ParseString("[]", List, nested) == Ok(Array([Str([])]))
  {
    StripBracketsOfWrapped([]);
    assert ['['] + [] + [']'] == "[]";
    assert ListPieces("[]") == [[]];
    assert CheckType([]) == StringType;
    assert ParseElement([], nested) == Ok(Str([]));
    ListFromElements("[]", [Str([])], nested);
  }

  lemma DigitElement(c: char, nested: ObjectParser)
    requires IsDigit(c)
    ensures ParseElement([c], nested) == Ok(Int(DigitValue(c)))
  {
    assert IsDigits([c]);
    assert [c][..0] == [];
    assert DecimalValue([c]) == DigitValue(c);
  }

  /** List elements of one digit each become the integers they spell. */
  lemma DigitElements(pieces: seq<string>, vals: seq<Value>, nested: ObjectParser)
    requires |vals| == |pieces|
    requires forall k :: 0 <= k < |pieces| ==> |pieces[k]| == 1 && IsDigit(pieces[k][0])
    requires forall k :: 0 <= k < |pieces| ==> vals[k] == Int(DigitValue(pieces[k][0]))
    ensures forall k :: 0 <= k < |pieces| ==> ParseElement(pieces[k], nested) == Ok(vals[k])
  {
    forall k | 0 <= k < |pieces|
      ensures ParseElement(pieces[k], nested) == Ok(vals[k])
    {
      DigitElement(pieces[k][0], nested);
      assert pieces[k] == [pieces[k][0]];
    }
  }

  /** One single-character text per digit. */
  function DigitTexts(ns: seq<nat>): (parts: seq<string>)
    requires forall k :: 0 <= k < |ns| ==> ns[k] < 10
    ensures |parts| == |ns|
  {
    seq(|ns|, k requires 0 <= k < |ns| => [DigitChar(ns[k])])
  }

  /** A list of single digits, written as `[d0,d1,...]`, materialises to
      those integers in order. */
  lemma DigitListRoundTrip(ns: seq<nat>, nested: ObjectParser)
    requires |ns| > 0 && forall k :: 0 <= k < |ns| ==> ns[k] < 10
    ensures ParseString(['['] + Join(DigitTexts(ns), ',') + [']'], List, nested)
            == Ok(Array(seq(|ns|, k requires 0 <= k < |ns| => Int(ns[k]))))
  {
    var parts := DigitTexts(ns);
    var x := Join(parts, ',');
    var v := ['['] + x + [']'];
    var vals := seq(|ns|, k requires 0 <= k < |ns| => Int(ns[k]));
    assert forall k :: 0 <= k < |parts| ==> parts[k] != [] && ',' !in parts[k];
    JoinEnds(parts, ',');
    StripBracketsOfWrapped(x);
    SplitJoin(parts, ',');
    assert ListPieces(v) == parts;
    DigitElements(parts, vals, nested);
    ListFromElements(v, vals, nested);
  }
}

=== FILE: parser.dfy ===
/** parser.value_parse: the structural check, then every value token
    materialised in document order, then `dict(zip(keys, values))`. */
module Parser {
  import opened Wrappers
  import opened Errors
  import opened Text
  import opened ValueTypes
  import opened Lexer
  import opened Validator
  import opened Materializer

  /** The tokens of one kind, in document order. */
  function OfKind(toks: seq<Token>, k: Kind): (r: seq<Token>)
    ensures |r| <= |toks|
  {
    if toks == [] then []
    else (if toks[0].kind == k then [toks[0]] else []) + OfKind(toks[1..], k)
  }

  /** Selection keeps exactly the tokens of the kind. */
  lemma {:induction false} OfKindMembers(toks: seq<Token>, k: Kind)
    ensures forall t :: t in OfKind(toks, k) <==> t in toks && t.kind == k
    decreases |toks|
  {
    if toks != [] {
      OfKindMembers(toks[1..], k);
      assert toks == [toks[0]] + toks[1..];
    }
  }

  /** The texts of the key tokens: the list comprehension over `token_type == 'key'`. */
  function KeyTexts(toks: seq<Token>): (r: seq<string>)
    ensures |r| <= |toks|
  {
    var keys := OfKind(toks, Key);
    seq(|keys|, i requires 0 <= i < |keys| => keys[i].text)
  }

  /** `s` is the text of some key token. */
  predicate IsKeyText(toks: seq<Token>, s: string) {
    exists t :: t in toks && t.kind == Key && t.text == s
  }

  /** The key texts are the texts of the key tokens: every key token's text is
      among them, and each of them is some key token's text. */
  lemma KeyTextsMembers(toks: seq<Token>)
    ensures forall t :: t in toks && t.kind == Key ==> t.text in KeyTexts(toks)
    ensures forall i :: 0 <= i < |KeyTexts(toks)| ==> IsKeyText(toks, KeyTexts(toks)[i])
  {
    var keys := OfKind(toks, Key);
    OfKindMembers(toks, Key);
    forall t | t in toks && t.kind == Key
      ensures t.text in KeyTexts(toks)
    {
      var i :| 0 <= i < |keys| && keys[i] == t;
      assert KeyTexts(toks)[i] == t.text;
    }
    forall i | 0 <= i < |KeyTexts(toks)|
      ensures IsKeyText(toks, KeyTexts(toks)[i])
    {
      var t := keys[i];
      assert t in keys && t.text == KeyTexts(toks)[i];
      assert t in toks && t.kind == Key;
    }
  }

  /** parse_string on one value token. A token without a classification
      reaches the final branch of parse_string, which yields None. */
  function MaterializeToken(t: Token, nested: ObjectParser): (r: Result<Value, Error>)
    ensures t.valueType == None ==> r == Ok(Null)
    ensures t.valueType == Some(CheckType(t.text)) ==> r == ParseElement(t.text, nested)
    ensures r.Err? ==> t.valueType in {Some(Numeric), Some(Object), Some(List)}
  {
    match t.valueType
    case None => Ok(Null)
    case Some(vt) => ParseString(t.text, vt, nested)
  }

  function Materialized(values: seq<Token>, nested: ObjectParser): seq<Result<Value, Error>> {
    seq(|values|, i requires 0 <= i < |values| => MaterializeToken(values[i], nested))
  }

  function KeysOf(d: Dict): seq<string> {
    seq(|d|, i requires 0 <= i < |d| => d[i].0)
  }

  function ValuesOf(d: Dict): seq<Value> {
    seq(|d|, i requires 0 <= i < |d| => d[i].1)
  }

  /** `zip`: pairs up to the shorter of the two lists. */
  function Zip(keys: seq<string>, values: seq<Value>): (pairs: Dict)
    ensures |pairs| == if |keys| <= |values| then |keys| else |values|
  {
    var n := if |keys| <= |values| then |keys| else |values|;
    seq(n, i requires 0 <= i < n => (keys[i], values[i]))
  }

  /** Unzipping gives back as much of each list as was paired. */
  lemma UnzipZip(keys: seq<string>, values: seq<Value>)
    ensures var pairs := Zip(keys, values);
      KeysOf(pairs) == keys[..|pairs|] && ValuesOf(pairs) == values[..|pairs|]
  {
  }

  predicate UniqueKeys(d: Dict) {
    forall i, j :: 0 <= i < j < |d| ==> d[i].0 != d[j].0
  }

  /** The position of the first entry with key `k`. */
  function Find(d: Dict, k: string): (r: Option<nat>)
    ensures r.Some? ==> r.value < |d| && d[r.value].0 == k
    ensures r.Some? ==> forall j :: 0 <= j < r.value ==> d[j].0 != k
    ensures r.None? <==> forall j :: 0 <= j < |d| ==> d[j].0 != k
  {
    if d == [] then None
    else if d[0].0 == k then Some(0)
    else match Find(d[1..], k)
      case None => None
      case Some(i) => Some(i + 1)
  }

  /** `d.get(k)`. */
  function Lookup(d: Dict, k: string): Option<Value> {
    match Find(d, k)
    case None => None
    case Some(i) => Some(d[i].1)
  }

  /** With unique keys, the position holding `k` is the one `Find` reports. */
  lemma FindUnique(d: Dict, i: nat)
    requires UniqueKeys(d) && i < |d|
    ensures Find(d, d[i].0) == Some(i)
  {
  }

  /** `d[k] = v`: the value is replaced in place when `k` is present, and a
      new entry is appended otherwise. */
  function Insert(d: Dict, k: string, v: Value): (r: Dict)
    requires UniqueKeys(d)
    ensures UniqueKeys(r)
    ensures Find(d, k).Some? ==> |r| == |d|
    ensures Find(d, k).None? ==> |r| == |d| + 1 && r[|d|] == (k, v)
    ensures forall i :: 0 <= i < |d| ==> r[i].0 == d[i].0
    ensures forall i :: 0 <= i < |d| && d[i].0 != k ==> r[i] == d[i]
    ensures Lookup(r, k) == Some(v)
  {
    match Find(d, k)
    case Some(i) =>
      var r := d[i := (k, v)];
      FindUnique(r, i);
      r
    case None =>
      var r := d + [(k, v)];
      FindUnique(r, |d|);
      r
  }

  /** Storing under `k` leaves every other key's value as it was. */
  lemma InsertKeepsOthers(d: Dict, k: string, v: Value, k': string)
    requires UniqueKeys(d) && k' != k
    ensures Lookup(Insert(d, k, v), k') == Lookup(d, k')
  {
    var r := Insert(d, k, v);
    match Find(d, k')
    case Some(i) =>
      FindUnique(r, i);
    case None =>
      assert forall j :: 0 <= j < |r| ==> r[j].0 != k';
  }

  /** `dict(pairs)`: each pair in turn is stored, so the first occurrence of a
      key fixes its position and the last occurrence its value. */
  function DictOf(pairs: Dict): (d: Dict)
    ensures UniqueKeys(d)
    ensures |d| <= |pairs|
  {
    if pairs == [] then []
    else
      var last := pairs[|pairs| - 1];
      Insert(DictOf(pairs[..|pairs| - 1]), last.0, last.1)
  }

  /** The value a key ends with is that of its last pair. */
  predicate LastPair(pairs: Dict, k: string, v: Value) {
    exists i :: 0 <= i < |pairs| && pairs[i] == (k, v) && forall j :: i < j < |pairs| ==> pairs[j].0 != k
  }

  /** The last pair decides when it carries the key. */
  lemma LastPairAtEnd(pairs: Dict, k: string, v: Value)
    requires pairs != [] && pairs[|pairs| - 1].0 == k
    ensures LastPair(pairs, k, v) <==> pairs[|pairs| - 1].1 == v
  {
    var n := |pairs| - 1;
    if LastPair(pairs, k, v) {
      var i :| 0 <= i < |pairs| && pairs[i] == (k, v) && forall j :: i < j < |pairs| ==> pairs[j].0 != k;
      assert !(i < n);
    }
    if pairs[n].1 == v {
      assert pairs[n] == (k, v);
    }
  }

  /** Otherwise the pairs before it decide. */
  lemma LastPairBefore(pairs: Dict, k: string, v: Value)
    requires pairs != [] && pairs[|pairs| - 1].0 != k
    ensures LastPair(pairs, k, v) <==> LastPair(pairs[..|pairs| - 1], k, v)
  {
    var n := |pairs| - 1;
    var init := pairs[..n];
    if LastPair(pairs, k, v) {
      var i :| 0 <= i < |pairs| && pairs[i] == (k, v) && forall j :: i < j < |pairs| ==> pairs[j].0 != k;
      assert i < n && init[i] == (k, v);
      assert forall j :: i < j < |init| ==> init[j] == pairs[j];
    }
    if LastPair(init, k, v) {
      var i :| 0 <= i < |init| && init[i] == (k, v) && forall j :: i < j < |init| ==> init[j].0 != k;
      assert pairs[i] == (k, v);
      assert forall j :: i < j < n ==> init[j] == pairs[j];
    }
  }

  /** One step of `dict(pairs)`: the last pair's key now holds its value. */
  lemma DictOfSnoc(pairs: Dict, k: string)
    requires pairs != []
    ensures var n := |pairs| - 1;
            Lookup(DictOf(pairs), k) ==
              if pairs[n].0 == k then Some(pairs[n].1) else Lookup(DictOf(pairs[..n]), k)
  {
    var n := |pairs| - 1;
    if pairs[n].0 != k {
      InsertKeepsOthers(DictOf(pairs[..n]), pairs[n].0, pairs[n].1, k);
    }
  }

  lemma {:induction false} DictOfLookup(pairs: Dict, k: string, v: Value)
    ensures Lookup(DictOf(pairs), k) == Some(v) <==> LastPair(pairs, k, v)
    decreases |pairs|
  {
    if pairs != [] {
      var n := |pairs| - 1;
      DictOfLookup(pairs[..n], k, v);
      DictOfSnoc(pairs, k);
      if pairs[n].0 == k {
        LastPairAtEnd(pairs, k, v);
      } else {
        LastPairBefore(pairs, k, v);
      }
    }
  }

  /** `Find` reports exactly the first position holding `k`. */
  lemma FindFirst(d: Dict, k: string, i: nat)
    requires i < |d| && d[i].0 == k
    requires forall j :: 0 <= j < i ==> d[j].0 != k
    ensures Find(d, k) == Some(i)
  {
  }

  /** The first position of a key after one more pair. */
  lemma FindSnoc(pairs: Dict, k: string)
    requires pairs != []
    ensures var n := |pairs| - 1;
            Find(pairs, k) ==
              if Find(pairs[..n], k).Some? then Find(pairs[..n], k)
              else if pairs[n].0 == k then Some(n) else None
  {
    var n := |pairs| - 1;
    var init := pairs[..n];
    var f := Find(init, k);
    if f.Some? {
      var i := f.value;
      assert pairs[i] == init[i];
      forall j | 0 <= j < i ensures pairs[j].0 != k {
        assert pairs[j] == init[j];
      }
      FindFirst(pairs, k, i);
    } else {
      forall j | 0 <= j < n ensures pairs[j].0 != k {
        assert pairs[j] == init[j];
      }
      if pairs[n].0 == k {
        FindFirst(pairs, k, n);
      }
    }
  }

  /** A key is present exactly when some pair carries it. */
  lemma {:induction false} DictOfKeys(pairs: Dict, k: string)
    ensures Lookup(DictOf(pairs), k).Some? <==> Find(pairs, k).Some?
    decreases |pairs|
  {
    if pairs != [] {
      var n := |pairs| - 1;
      DictOfKeys(pairs[..n], k);
      DictOfSnoc(pairs, k);
      FindSnoc(pairs, k);
    }
  }

  /** Every key of `d` occurs in `pairs`, and `d` lists its keys in the
      order of their first occurrence there. */
  predicate FirstOccurrenceOrder(d: Dict, pairs: Dict) {
    && (forall a :: 0 <= a < |d| ==> Find(pairs, d[a].0).Some?)
    && (forall a, b :: 0 <= a < b < |d| ==> Find(pairs, d[a].0).value < Find(pairs, d[b].0).value)
  }

  /** Entries appear in the order of the first occurrence of their keys. */
  lemma {:induction false} DictOfInsertionOrder(pairs: Dict)
    ensures FirstOccurrenceOrder(DictOf(pairs), pairs)
    decreases |pairs|
  {
    if pairs != [] {
      var n := |pairs| - 1;
      var init := pairs[..n];
      var last := pairs[n];
      var di := DictOf(init);
      var d := DictOf(pairs);
      DictOfInsertionOrder(init);
      assert d == Insert(di, last.0, last.1);
      forall a | 0 <= a < |di|
        ensures Find(pairs, d[a].0) == Find(init, di[a].0)
        ensures Find(pairs, d[a].0).Some? && Find(pairs, d[a].0).value < n
      {
        FindSnoc(pairs, di[a].0);
      }
      if Find(di, last.0).None? {
        DictOfKeys(init, last.0);
        FindSnoc(pairs, last.0);
        assert Find(pairs, d[|di|].0) == Some(n);
      }
    }
  }

  /** Pairs with distinct keys come through unchanged. */
  lemma {:induction false} DictOfDistinct(pairs: Dict)
    requires UniqueKeys(pairs)
    ensures DictOf(pairs) == pairs
    decreases |pairs|
  {
    if pairs != [] {
      var n := |pairs| - 1;
      var init := pairs[..n];
      DictOfDistinct(init);
      assert Find(init, pairs[n].0).None?;
      assert init + [pairs[n]] == pairs;
    }
  }

  /** Every value token materialises. */
  predicate AllMaterialize(values: seq<Token>, nested: ObjectParser) {
    forall i :: 0 <= i < |values| ==> MaterializeToken(values[i], nested).Ok?
  }

  /** parser.value_parse. A rejected structure is the source's sys.exit; a
      two-token document is the empty dict without looking at values. */
  function ValueParse(toks: seq<Token>, nested: ObjectParser): (r: Result<Dict, Error>)
    ensures ParseError(toks).Err? ==> r == Err(TokenIndexOutOfRange)
    ensures ParseError(toks) == Ok(1) ==> r == Err(StructuralParseError)
    ensures r.Ok? ==> UniqueKeys(r.value) && |r.value| <= |OfKind(toks, Key)|
    ensures ParseError(toks) == Ok(0) ==>
      (r.Ok? <==> |toks| == 2 || AllMaterialize(OfKind(toks, Value), nested))
    ensures ParseError(toks) == Ok(0) && r.Err? ==>
      exists i :: 0 <= i < |OfKind(toks, Value)| && MaterializeToken(OfKind(toks, Value)[i], nested) == Err(r.error)
        && forall j :: 0 <= j < i ==> MaterializeToken(OfKind(toks, Value)[j], nested).Ok?
  {
    match ParseError(toks)
    case Err(e) => Err(e)
    case Ok(code) =>
      if code == 1 then Err(StructuralParseError)
      else if |toks| == 2 then Ok([])
      else
        var values := OfKind(toks, Value);
        var results := Materialized(values, nested);
        assert forall i :: 0 <= i < |values| ==> results[i] == MaterializeToken(values[i], nested);
        match Collect(results)
        case Err(e) => Err(e)
        case Ok(vs) => Ok(DictOf(Zip(KeyTexts(toks), vs)))
  }

  /** With two tokens, only `[opening, closing]` gets past the structural
      check, and it yields the empty dict. */
  lemma ValueParseTwoTokens(toks: seq<Token>, nested: ObjectParser)
    requires |toks| == 2
    ensures ValueParse(toks, nested) == Ok([]) <==>
      toks[0].kind == OpeningBracket && toks[1].kind == ClosingBracket
  {
    if ParseError(toks) == Ok(0) {
      TwoTokensPassOnlyWhenFramed(toks);
    }
  }

  /** The result of a two-token document that passes has neither keys nor values. */
  lemma TwoTokensHaveNoEntries(toks: seq<Token>)
    requires |toks| == 2 && ParseError(toks) == Ok(0)
    ensures OfKind(toks, Key) == [] && OfKind(toks, Value) == []
  {
    TwoTokensPassOnlyWhenFramed(toks);
    assert toks == [toks[0]] + [toks[1]];
    OfKindAppend([toks[0]], [toks[1]], Key);
    OfKindAppend([toks[0]], [toks[1]], Value);
    OfKindSingle(toks[0], Key);
    OfKindSingle(toks[0], Value);
    OfKindSingle(toks[1], Key);
    OfKindSingle(toks[1], Value);
  }

  /** The values the value tokens materialise to, in order. */
  function MaterializedValues(values: seq<Token>, nested: ObjectParser): (vs: seq<Value>)
    requires AllMaterialize(values, nested)
    ensures |vs| == |values|
    ensures forall i :: 0 <= i < |values| ==> MaterializeToken(values[i], nested) == Ok(vs[i])
  {
    seq(|values|, i requires 0 <= i < |values| => MaterializeToken(values[i], nested).value)
  }

  /** The pairs `dict(zip(keys, values))` is built from. */
  function ZippedPairs(toks: seq<Token>, nested: ObjectParser): Dict
    requires AllMaterialize(OfKind(toks, Value), nested)
  {
    Zip(KeyTexts(toks), MaterializedValues(OfKind(toks, Value), nested))
  }

  /** An accepted document is `dict` of its zipped pairs. */
  lemma ValueParseIsDictOfPairs(toks: seq<Token>, nested: ObjectParser)
    requires ValueParse(toks, nested).Ok?
    ensures AllMaterialize(OfKind(toks, Value), nested)
    ensures ValueParse(toks, nested).value == DictOf(ZippedPairs(toks, nested))
  {
    if |toks| == 2 {
      TwoTokensHaveNoEntries(toks);
    } else {
      var values := OfKind(toks, Value);
      var results := Materialized(values, nested);
      assert forall i :: 0 <= i < |values| ==> results[i] == MaterializeToken(values[i], nested);
      var vs := Collect(results).value;
      assert vs == MaterializedValues(values, nested);
    }
  }

  /** The i-th key maps to the i-th value, unless a later key within the
      zipped range repeats it. */
  lemma ValueParseEntry(toks: seq<Token>, nested: ObjectParser, i: nat)
    requires ValueParse(toks, nested).Ok?
    requires i < |KeyTexts(toks)| && i < |OfKind(toks, Value)|
    requires forall j :: i < j < |KeyTexts(toks)| && j < |OfKind(toks, Value)| ==>
               KeyTexts(toks)[j] != KeyTexts(toks)[i]
    ensures MaterializeToken(OfKind(toks, Value)[i], nested).Ok?
    ensures Lookup(ValueParse(toks, nested).value, KeyTexts(toks)[i])
            == Some(MaterializeToken(OfKind(toks, Value)[i], nested).value)
  {
    ValueParseIsDictOfPairs(toks, nested);
    var pairs := ZippedPairs(toks, nested);
    var k := KeyTexts(toks)[i];
    var v := MaterializedValues(OfKind(toks, Value), nested)[i];
    assert pairs[i] == (k, v);
    assert forall j :: i < j < |pairs| ==> pairs[j].0 != k;
    DictOfLookup(pairs, k, v);
  }

  /** The keys `zip` pairs up. */
  lemma ZipKeys(keys: seq<string>, vs: seq<Value>, k: string)
    ensures Find(Zip(keys, vs), k).Some? <==> exists i :: 0 <= i < |keys| && i < |vs| && keys[i] == k
  {
    var pairs := Zip(keys, vs);
    if exists i :: 0 <= i < |keys| && i < |vs| && keys[i] == k {
      var i :| 0 <= i < |keys| && i < |vs| && keys[i] == k;
      assert pairs[i].0 == k;
    }
  }

  /** Exactly the keys within the zipped range are present: keys beyond the
      number of values are dropped by `zip`. */
  lemma ValueParseKeys(toks: seq<Token>, nested: ObjectParser, k: string)
    requires ValueParse(toks, nested).Ok?
    ensures Lookup(ValueParse(toks, nested).value, k).Some? <==>
      exists i :: 0 <= i < |KeyTexts(toks)| && i < |OfKind(toks, Value)| && KeyTexts(toks)[i] == k
  {
    ValueParseIsDictOfPairs(toks, nested);
    var vs := MaterializedValues(OfKind(toks, Value), nested);
    DictOfKeys(ZippedPairs(toks, nested), k);
    ZipKeys(KeyTexts(toks), vs, k);
  }

  /** Tokens as the lexer produces them from matches `m` (each value token
      classified by its own text) always materialise when nested objects do,
      so every such document that passes the structural check parses. */
  lemma ValueParseTotal(m: Matches, toks: seq<Token>, nested: ObjectParser)
    requires forall t :: t in toks ==> FromMatch(m, t)
    requires forall s :: nested(s).Ok?
    ensures ValueParse(toks, nested).Ok? <==> ParseError(toks) == Ok(0)
  {
    var values := OfKind(toks, Value);
    OfKindMembers(toks, Value);
    forall i | 0 <= i < |values|
      ensures MaterializeToken(values[i], nested).Ok?
    {
      assert values[i] in values;
      ParseClassifiedTotal(values[i].text, nested);
    }
  }

  /** Selection distributes over concatenation. */
  lemma {:induction false} OfKindAppend(a: seq<Token>, b: seq<Token>, k: Kind)
    ensures OfKind(a + b, k) == OfKind(a, k) + OfKind(b, k)
    decreases |a|
  {
    if a == [] {
      assert a + b == b;
    } else {
      var h := if a[0].kind == k then [a[0]] else [];
      calc {
        OfKind(a + b, k);
      == { assert (a + b)[0] == a[0]; assert (a + b)[1..] == a[1..] + b; }
        h + OfKind(a[1..] + b, k);
      == { OfKindAppend(a[1..], b, k); }
        h + (OfKind(a[1..], k) + OfKind(b, k));
      ==
        (h + OfKind(a[1..], k)) + OfKind(b, k);
      }
    }
  }

  lemma OfKindSingle(t: Token, k: Kind)
    ensures OfKind([t], k) == if t.kind == k then [t] else []
  {
    assert [t][1..] == [];
  }

  /** One step of selection along a suffix. */
  lemma OfKindSuffix(s: seq<Token>, i: nat, k: Kind)
    requires i < |s|
    ensures OfKind(s[i..], k) == (if s[i].kind == k then [s[i]] else []) + OfKind(s[i + 1..], k)
  {
    assert s[i..][0] == s[i];
    assert s[i..][1..] == s[i + 1..];
  }

  /** An accepted document longer than two tokens whose values materialise to
      `vs` and whose zipped keys are distinct is exactly those pairs. */
  lemma ValueParseDistinct(toks: seq<Token>, nested: ObjectParser, vs: seq<Value>)
    requires ParseError(toks) == Ok(0) && |toks| != 2
    requires |vs| == |OfKind(toks, Value)|
    requires forall i :: 0 <= i < |vs| ==> MaterializeToken(OfKind(toks, Value)[i], nested) == Ok(vs[i])
    requires UniqueKeys(Zip(KeyTexts(toks), vs))
    ensures ValueParse(toks, nested) == Ok(Zip(KeyTexts(toks), vs))
  {
    var values := OfKind(toks, Value);
    var results := Materialized(values, nested);
    assert forall i :: 0 <= i < |values| ==> results[i] == Ok(vs[i]);
    var c := Collect(results);
    assert c.Ok?;
    assert c.value == vs;
    DictOfDistinct(Zip(KeyTexts(toks), vs));
  }

  /** The tokens of one `"key":value` member, as the lexer leaves them: the
      key without its quotes, the value classified by its own text. Positions
      play no part in value_parse. */
  function MemberTokens(key: string, value: string): seq<Token> {
    [Token(key, Key, None, 0, 0), Tok(Colon), Token(value, Value, Some(CheckType(value)), 0, 0)]
  }

  /** Members separated by commas. */
  function MembersTokens(members: seq<(string, string)>): (toks: seq<Token>)
    ensures members == [] <==> toks == []
  {
    if members == [] then []
    else if |members| == 1 then MemberTokens(members[0].0, members[0].1)
    else MemberTokens(members[0].0, members[0].1) + [Tok(Separator)] + MembersTokens(members[1..])
  }

  /** `{` members `}`. */
  function DocumentTokens(members: seq<(string, string)>): seq<Token> {
    [Tok(OpeningBracket)] + MembersTokens(members) + [Tok(ClosingBracket)]
  }

  lemma MemberSelection(key: string, value: string)
    ensures OfKind(MemberTokens(key, value), Key) == [Token(key, Key, None, 0, 0)]
    ensures OfKind(MemberTokens(key, value), Value) == [Token(value, Value, Some(CheckType(value)), 0, 0)]
  {
    var m := MemberTokens(key, value);
    OfKindSuffix(m, 0, Key);
    OfKindSuffix(m, 1, Key);
    OfKindSuffix(m, 2, Key);
    OfKindSuffix(m, 0, Value);
    OfKindSuffix(m, 1, Value);
    OfKindSuffix(m, 2, Value);
    assert m[3..] == [];
    assert m[0..] == m;
  }

  function KeyTokensOf(members: seq<(string, string)>): seq<Token> {
    seq(|members|, i requires 0 <= i < |members| => Token(members[i].0, Key, None, 0, 0))
  }

  function ValueTokensOf(members: seq<(string, string)>): seq<Token> {
    seq(|members|, i requires 0 <= i < |members| => Token(members[i].1, Value, Some(CheckType(members[i].1)), 0, 0))
  }

  lemma TokensOfCons(members: seq<(string, string)>)
    requires members != []
    ensures KeyTokensOf(members) == [Token(members[0].0, Key, None, 0, 0)] + KeyTokensOf(members[1..])
    ensures ValueTokensOf(members) ==
      [Token(members[0].1, Value, Some(CheckType(members[0].1)), 0, 0)] + ValueTokensOf(members[1..])
  {
  }

  /** Selection over one member followed by a separator and further tokens. */
  lemma SelectionCons(m: seq<Token>, rest: seq<Token>, k: Kind)
    ensures OfKind(m + [Tok(Separator)] + rest, k) == OfKind(m, k) + OfKind(rest, k)
    requires k != Separator
  {
    OfKindAppend(m + [Tok(Separator)], rest, k);
    OfKindAppend(m, [Tok(Separator)], k);
    OfKindSingle(Tok(Separator), k);
  }

  /** The key and value tokens of the members, in order. */
  lemma {:induction false} MembersSelection(members: seq<(string, string)>)
    ensures OfKind(MembersTokens(members), Key) == KeyTokensOf(members)
    ensures OfKind(MembersTokens(members), Value) == ValueTokensOf(members)
    decreases |members|
  {
    if members != [] {
      var m := MemberTokens(members[0].0, members[0].1);
      MemberSelection(members[0].0, members[0].1);
      TokensOfCons(members);
      if |members| > 1 {
        var rest := MembersTokens(members[1..]);
        assert MembersTokens(members) == m + [Tok(Separator)] + rest;
        MembersSelection(members[1..]);
        SelectionCons(m, rest, Key);
        SelectionCons(m, rest, Value);
      } else {
        assert members[1..] == [];
      }
    }
  }

  /** Selection over the whole document: the brackets are neither keys nor values. */
  lemma DocumentSelection(members: seq<(string, string)>, k: Kind)
    requires k == Key || k == Value
    ensures OfKind(DocumentTokens(members), k) == OfKind(MembersTokens(members), k)
  {
    var inner := MembersTokens(members);
    OfKindAppend([Tok(OpeningBracket)] + inner, [Tok(ClosingBracket)], k);
    OfKindAppend([Tok(OpeningBracket)], inner, k);
    OfKindSingle(Tok(OpeningBracket), k);
    OfKindSingle(Tok(ClosingBracket), k);
  }

  /** A bracketed document passes the structural check. */
  lemma DocumentPasses(members: seq<(string, string)>)
    ensures ParseError(DocumentTokens(members)) == Ok(0)
    ensures |DocumentTokens(members)| == 2 <==> members == []
  {
    assert Framed(DocumentTokens(members));
  }

  /** Each member's key with its materialised value. */
  function Entries(members: seq<(string, string)>, vals: seq<Value>): Dict
    requires |vals| == |members|
  {
    seq(|members|, i requires 0 <= i < |members| => (members[i].0, vals[i]))
  }

  /** A document written from members with distinct keys, each of whose values
      materialises, parses back to exactly those keys and values, in order. */
  lemma DocumentRoundTrip(members: seq<(string, string)>, vals: seq<Value>, nested: ObjectParser)
    requires |vals| == |members|
    requires forall i :: 0 <= i < |members| ==> ParseString(members[i].1, CheckType(members[i].1), nested) == Ok(vals[i])
    requires forall i, j :: 0 <= i < j < |members| ==> members[i].0 != members[j].0
    ensures ValueParse(DocumentTokens(members), nested) == Ok(Entries(members, vals))
  {
    var toks := DocumentTokens(members);
    DocumentPasses(members);
    if members != [] {
      MembersSelection(members);
      DocumentSelection(members, Key);
      DocumentSelection(members, Value);
      var keys := seq(|members|, i requires 0 <= i < |members| => members[i].0);
      KeysOfDocument(members, keys);
      MaterializeMembers(members, vals, nested);
      ZipMembers(members, keys, vals);
      ValueParseDistinct(toks, nested, vals);
    } else {
      assert |toks| == 2;
      assert ValueParse(toks, nested) == Ok([]);
      assert Entries(members, vals) == [];
    }
  }

  lemma KeysOfDocument(members: seq<(string, string)>, keys: seq<string>)
    requires OfKind(DocumentTokens(members), Key) == KeyTokensOf(members)
    requires keys == seq(|members|, i requires 0 <= i < |members| => members[i].0)
    ensures KeyTexts(DocumentTokens(members)) == keys
  {
  }

  lemma MaterializeMembers(members: seq<(string, string)>, vals: seq<Value>, nested: ObjectParser)
    requires |vals| == |members|
    requires forall i :: 0 <= i < |members| ==> ParseString(members[i].1, CheckType(members[i].1), nested) == Ok(vals[i])
    ensures forall i :: 0 <= i < |vals| ==> MaterializeToken(ValueTokensOf(members)[i], nested) == Ok(vals[i])
  {
  }

  lemma ZipMembers(members: seq<(string, string)>, keys: seq<string>, vals: seq<Value>)
    requires |vals| == |members|
    requires forall i, j :: 0 <= i < j < |members| ==> members[i].0 != members[j].0
    requires keys == seq(|members|, i requires 0 <= i < |members| => members[i].0)
    ensures Zip(keys, vals) == Entries(members, vals)
    ensures UniqueKeys(Zip(keys, vals))
  {
  }

  /** `{"a":n,"b":"x"}`, for distinct keys, a number written in decimal and
      a quoted text, parses to the integer and the unquoted text, in document
      order. */
  lemma SampleDocument(a: string, b: string, n: nat, x: string, nested: ObjectParser)
    requires a != b
    ensures ValueParse(DocumentTokens([(a, DecimalText(n)), (b, "\"" + x + "\"")]), nested)
            == Ok([(a, Int(n)), (b, Str(x))])
  {
    var members := [(a, DecimalText(n)), (b, "\"" + x + "\"")];
    var vals := [Int(n), Str(x)];
    assert forall i :: 0 <= i < |members| ==>
      ParseString(members[i].1, CheckType(members[i].1), nested) == Ok(vals[i]) by {
      NumericRoundTrip(n, nested);
      StringRoundTrip(x, nested);
    }
    DocumentRoundTrip(members, vals, nested);
    assert Entries(members, vals) == [(a, Int(n)), (b, Str(x))];
  }

  /** A repeated key keeps its first position and takes its last value:
      `{"a":1,"b":2,"a":3}` parses to `{"a": 3, "b": 2}`. */
  lemma DuplicateKeyLastValueWins(v1: Value, v2: Value, v3: Value)
    ensures DictOf([("a", v1), ("b", v2), ("a", v3)]) == [("a", v3), ("b", v2)]
  {
    var p := [("a", v1), ("b", v2), ("a", v3)];
    assert p[..2] == [("a", v1), ("b", v2)];
    assert p[..2][..1] == [("a", v1)];
    assert p[..2][..1][..0] == [];
    var d1 := DictOf([("a", v1)]);
    assert Find([], "a") == None;
    assert d1 == [("a", v1)];
    FindFirst(d1 + [("b", v2)], "b", 1);
    assert Find(d1, "b") == None;
    var d2 := DictOf([("a", v1), ("b", v2)]);
    assert d2 == [("a", v1), ("b", v2)];
    FindFirst(d2, "a", 0);
    assert DictOf(p) == Insert(d2, "a", v3);
  }

  /** An opening bracket and one member, with no closing bracket, passes the
      structural check through its key. */
  lemma UnterminatedPasses(key: string, value: string)
    ensures ParseError([Tok(OpeningBracket)] + MemberTokens(key, value)) == Ok(0)
  {
    assert WellPlacedKey([Tok(OpeningBracket)] + MemberTokens(key, value), 1);
  }

  lemma UnterminatedSelection(key: string, value: string)
    ensures var m := MemberTokens(key, value);
            && OfKind([Tok(OpeningBracket)] + m, Key) == [m[0]]
            && OfKind([Tok(OpeningBracket)] + m, Value) == [m[2]]
  {
    var m := MemberTokens(key, value);
    MemberSelection(key, value);
    OfKindAppend([Tok(OpeningBracket)], m, Key);
    OfKindAppend([Tok(OpeningBracket)], m, Value);
    OfKindSingle(Tok(OpeningBracket), Key);
    OfKindSingle(Tok(OpeningBracket), Value);
  }

  /** An accepted document with one key and one value parses to that pair. */
  lemma SingleMember(toks: seq<Token>, key: string, v: Value, nested: ObjectParser)
    requires ParseError(toks) == Ok(0) && |toks| != 2
    requires KeyTexts(toks) == [key] && |OfKind(toks, Value)| == 1
    requires MaterializeToken(OfKind(toks, Value)[0], nested) == Ok(v)
    ensures ValueParse(toks, nested) == Ok([(key, v)])
  {
    assert Zip([key], [v]) == [(key, v)];
    ValueParseDistinct(toks, nested, [v]);
  }

  /** An unterminated object is accepted: its first key sits after the
      opening bracket and before a colon, which is enough for the structural
      check. `{"a":1` parses to `{"a": 1}`. */
  lemma UnterminatedAccepted(key: string, value: string, v: Value, nested: ObjectParser)
    requires ParseString(value, CheckType(value), nested) == Ok(v)
    ensures ValueParse([Tok(OpeningBracket)] + MemberTokens(key, value), nested) == Ok([(key, v)])
  {
    var m := MemberTokens(key, value);
    var toks := [Tok(OpeningBracket)] + m;
    UnterminatedPasses(key, value);
    UnterminatedSelection(key, value);
    SingleMember(toks, key, v, nested);
  }
}

=== FILE: text.dfy ===
/** The Python `str` operations the decoder relies on, restricted to ASCII:
    `isdigit`, `lower`, `count`, `split(',')`, `strip("[]")` and `int()`. */
module Text {

  predicate IsDigit(c: char) {
    '0' <= c <= '9'
  }

  /** `str.isdigit()`: at least one character, and every character a digit. */
  predicate IsDigits(s: string) {
    |s| > 0 && forall i :: 0 <= i < |s| ==> IsDigit(s[i])
  }

  function LowerChar(c: char): char {
    if 'A' <= c <= 'Z' then (c as int + 32) as char else c
  }

  /** `str.lower()` on ASCII letters; every other character is unchanged. */
  function Lower(s: string): (r: string)
    ensures |r| == |s|
    ensures forall i :: 0 <= i < |r| ==> !('A' <= r[i] <= 'Z')
    ensures forall i :: 0 <= i < |s| && !('A' <= s[i] <= 'Z') ==> r[i] == s[i]
    ensures forall i :: 0 <= i < |s| && 'A' <= s[i] <= 'Z' ==> r[i] as int == s[i] as int + 32
  {
    seq(|s|, i requires 0 <= i < |s| => LowerChar(s[i]))
  }

  /** `isdigit` does not see case: lower-casing leaves digit text alone and
      makes no new digit text. */
  lemma LowerKeepsDigits(s: string)
    ensures IsDigits(s) ==> Lower(s) == s
    ensures IsDigits(Lower(s)) <==> IsDigits(s)
  {
    var l := Lower(s);
    if IsDigits(s) {
      assert forall i :: 0 <= i < |l| ==> l[i] == s[i];
    }
    if IsDigits(l) {
      assert forall i :: 0 <= i < |s| ==> IsDigit(l[i]) && l[i] == LowerChar(s[i]);
    }
  }

  lemma LowerIdempotent(s: string)
    ensures Lower(Lower(s)) == Lower(s)
  {
  }

  /** `str.count(c)` for a single character. */
  function CountChar(s: string, c: char): nat {
    if s == [] then 0 else (if s[0] == c then 1 else 0) + CountChar(s[1..], c)
  }

  lemma {:induction false} CountCharAppend(a: string, b: string, c: char)
    ensures CountChar(a + b, c) == CountChar(a, c) + CountChar(b, c)
  {
    if a == [] {
      assert a + b == b;
    } else {
      assert (a + b)[1..] == a[1..] + b;
      CountCharAppend(a[1..], b, c);
    }
  }

  // ---------------------------------------------------------------------
  // split(',')

  /** `str.split(sep)` with a one-character separator: the pieces between
      consecutive separators, so there is always at least one piece. */
  function Split(s: string, sep: char): (r: seq<string>)
    ensures |r| == CountChar(s, sep) + 1
    ensures forall k :: 0 <= k < |r| ==> sep !in r[k]
    ensures forall k :: 0 <= k < |r| ==> |r[k]| <= |s|
  {
    if s == [] then [[]]
    else
      var rest := Split(s[1..], sep);
      if s[0] == sep then [[]] + rest
      else [[s[0]] + rest[0]] + rest[1..]
  }

  /** `sep.join(parts)`, the inverse of Split. */
  function Join(parts: seq<string>, sep: char): string
    requires |parts| > 0
  {
    if |parts| == 1 then parts[0] else parts[0] + [sep] + Join(parts[1..], sep)
  }

  /** A join of non-empty parts starts with the first part's first character
      and ends with the last part's last character. */
  lemma {:induction false} JoinEnds(parts: seq<string>, sep: char)
    requires |parts| > 0
    requires forall k :: 0 <= k < |parts| ==> parts[k] != []
    ensures var j := Join(parts, sep);
      |j| > 0 && j[0] == parts[0][0] && j[|j| - 1] == parts[|parts| - 1][|parts[|parts| - 1]| - 1]
    decreases |parts|
  {
    if |parts| > 1 {
      JoinEnds(parts[1..], sep);
    }
  }

  lemma {:induction false} JoinSplit(s: string, sep: char)
    ensures Join(Split(s, sep), sep) == s
  {
    if s != [] {
      var rest := Split(s[1..], sep);
      JoinSplit(s[1..], sep);
      if s[0] == sep {
        assert ([[]] + rest)[1..] == rest;
      } else {
        var parts := [[s[0]] + rest[0]] + rest[1..];
        if |rest| == 1 {
          assert parts == [[s[0]] + rest[0]];
        } else {
          assert parts[1..] == rest[1..];
          assert Join(rest, sep) == rest[0] + [sep] + Join(rest[1..], sep);
        }
      }
    }
  }

  lemma {:induction false} SplitJoin(parts: seq<string>, sep: char)
    requires |parts| > 0
    requires forall k :: 0 <= k < |parts| ==> sep !in parts[k]
    ensures Split(Join(parts, sep), sep) == parts
  {
    if |parts| == 1 {
      SplitNoSeparator(parts[0], sep);
    } else {
      var tail := Join(parts[1..], sep);
      SplitJoin(parts[1..], sep);
      SplitAround(parts[0], tail, sep);
    }
  }

  lemma {:induction false} SplitNoSeparator(s: string, sep: char)
    requires sep !in s
    ensures Split(s, sep) == [s]
  {
    if s != [] {
      SplitNoSeparator(s[1..], sep);
      assert s[0] != sep;
      assert [s[0]] + s[1..] == s;
    }
  }

  /** Splitting `a + [sep] + b` with no separator in `a` puts `a` first. */
  lemma {:induction false} SplitAround(a: string, b: string, sep: char)
    requires sep !in a
    ensures Split(a + [sep] + b, sep) == [a] + Split(b, sep)
  {
    if a == [] {
      assert a + [sep] + b == [sep] + b;
      assert ([sep] + b)[1..] == b;
    } else {
      assert (a + [sep] + b)[1..] == a[1..] + [sep] + b;
      SplitAround(a[1..], b, sep);
      assert [a[0]] + a[1..] == a;
    }
  }

  // ---------------------------------------------------------------------
  // strip("[]")

  predicate IsSquareBracket(c: char) {
    c == '[' || c == ']'
  }

  /** The number of square brackets at the front of `s`. */
  function Lead(s: string): (n: nat)
    ensures n <= |s|
    ensures forall i :: 0 <= i < n ==> IsSquareBracket(s[i])
    ensures n < |s| ==> !IsSquareBracket(s[n])
  {
    if s != [] && IsSquareBracket(s[0]) then 1 + Lead(s[1..]) else 0
  }

  /** The number of square brackets at the back of `s`. */
  function Trail(s: string): (n: nat)
    ensures n <= |s|
    ensures forall i :: |s| - n <= i < |s| ==> IsSquareBracket(s[i])
    ensures n < |s| ==> !IsSquareBracket(s[|s| - n - 1])
  {
    if s != [] && IsSquareBracket(s[|s| - 1]) then 1 + Trail(s[..|s| - 1]) else 0
  }

  /** `str.strip("[]")`: the leading brackets go, then the trailing brackets of
      what is left, however many there are. */
  function StripBrackets(s: string): (r: string)
    ensures Lead(s) + |r| <= |s| && r == s[Lead(s)..Lead(s) + |r|]
    ensures forall i :: Lead(s) + |r| <= i < |s| ==> IsSquareBracket(s[i])
    ensures r == [] || (!IsSquareBracket(r[0]) && !IsSquareBracket(r[|r| - 1]))
  {
    var i := Lead(s);
    var rest := s[i..];
    var t := Trail(rest);
    assert forall k :: i + |rest| - t <= k < |s| ==> s[k] == rest[k - i];
    s[i..|s| - t]
  }

  /** Strip removes at least the first character when it is a bracket, and
      at least two when the text is enclosed in `[` and `]`. */
  lemma StripBracketsShortens(s: string)
    ensures |StripBrackets(s)| <= |s|
    ensures s != [] && IsSquareBracket(s[0]) ==> |StripBrackets(s)| < |s|
    ensures |s| >= 2 && s[0] == '[' && s[|s| - 1] == ']' ==> |StripBrackets(s)| <= |s| - 2
  {
  }

  /** Strip undoes one pair of enclosing brackets around bracket-free ends. */
  lemma StripBracketsOfWrapped(x: string)
    requires x == [] || (!IsSquareBracket(x[0]) && !IsSquareBracket(x[|x| - 1]))
    ensures StripBrackets(['['] + x + [']']) == x
  {
    var w := ['['] + x + [']'];
    var r := StripBrackets(w);
    if x == [] {
      assert |r| == 0;
    } else {
      assert Lead(w) == 1 by {
        assert w[1..][0] == x[0];
      }
      assert w[|w| - 2] == x[|x| - 1];
      assert r == w[1..|w| - 1];
      assert w[1..|w| - 1] == x;
    }
  }

  // ---------------------------------------------------------------------
  // int() on decimal digit text, and its inverse

  function DigitValue(c: char): nat
    requires IsDigit(c)
  {
    c as int - '0' as int
  }

  function DigitChar(d: nat): (c: char)
    requires d < 10
    ensures IsDigit(c) && DigitValue(c) == d
  {
    ('0' as int + d) as char
  }

  /** `int(s)` for text made of decimal digits only. */
  function DecimalValue(s: string): (n: nat)
    requires forall i :: 0 <= i < |s| ==> IsDigit(s[i])
    ensures |s| > 0 && s[0] != '0' ==> n > 0
  {
    if s == [] then 0
    else
      assert |s| > 1 ==> s[..|s| - 1][0] == s[0];
      DecimalValue(s[..|s| - 1]) * 10 + DigitValue(s[|s| - 1])
  }

  /** `str(n)` for a natural number: shortest decimal text, no leading zero. */
  function DecimalText(n: nat): (s: string)
    ensures IsDigits(s)
    ensures s[0] == '0' ==> |s| == 1
  {
    if n < 10 then [DigitChar(n)] else DecimalText(n / 10) + [DigitChar(n % 10)]
  }

  lemma {:induction false} DecimalValueOfText(n: nat)
    ensures DecimalValue(DecimalText(n)) == n
  {
    if n >= 10 {
      var s := DecimalText(n);
      assert s[..|s| - 1] == DecimalText(n / 10);
      DecimalValueOfText(n / 10);
    }
  }

  /** Appending a digit to a positive number's text multiplies it by ten and
      adds the digit. */
  lemma DecimalTextStep(v: nat, d: nat)
    requires v > 0 && d < 10
    ensures DecimalText(v * 10 + d) == DecimalText(v) + [DigitChar(d)]
  {
    assert (v * 10 + d) / 10 == v && (v * 10 + d) % 10 == d;
  }

  /** Appending a digit to digit text multiplies its value by ten and adds
      the digit. */
  lemma DecimalValueSnoc(p: string, c: char)
    requires forall i :: 0 <= i < |p| ==> IsDigit(p[i])
    requires IsDigit(c)
    ensures forall i :: 0 <= i < |p + [c]| ==> IsDigit((p + [c])[i])
    ensures DecimalValue(p + [c]) == DecimalValue(p) * 10 + DigitValue(c)
  {
    var q := p + [c];
    assert q[|q| - 1] == c;
    assert q[..|q| - 1] == p;
  }

  /** One more digit after a canonical text keeps it canonical. */
  lemma DecimalTextOfValueStep(p: string, c: char)
    requires IsDigits(p) && p[0] != '0' && IsDigit(c)
    requires DecimalText(DecimalValue(p)) == p
    ensures DecimalText(DecimalValue(p + [c])) == p + [c]
  {
    var v, d := DecimalValue(p), DigitValue(c);
    DecimalValueSnoc(p, c);
    assert v > 0;
    DecimalTextStep(v, d);
    assert DigitChar(d) == c by {
      assert DigitChar(d) as int == c as int;
    }
  }

  lemma {:induction false} DecimalTextOfValue(s: string)
    requires IsDigits(s)
    requires s[0] == '0' ==> |s| == 1
    ensures DecimalText(DecimalValue(s)) == s
  {
    if |s| == 1 {
      assert DecimalValue(s) == DigitValue(s[0]) by {
        assert s[..0] == [];
      }
      assert DigitChar(DigitValue(s[0])) == s[0];
    } else {
      var p := s[..|s| - 1];
      assert p[0] == s[0];
      DecimalTextOfValue(p);
      DecimalTextOfValueStep(p, s[|s| - 1]);
      assert p + [s[|s| - 1]] == s;
    }
  }
}

=== FILE: validator.dfy ===
/** parse_error: the structural check run before any value is materialised. */
module Validator {
  import opened Wrappers
  import opened Errors
  import opened Lexer

  /** `tokens[i - 1]` with Python's negative indexing: at 0 it is the last token. */
  function Prev(n: nat, i: nat): nat
    requires i < n
  {
    if i == 0 then n - 1 else i - 1
  }

  predicate OpensKey(k: Kind) {
    k == OpeningBracket || k == Separator
  }

  /** The whole-document test: first token opening, last token closing. */
  predicate Framed(toks: seq<Token>) {
    |toks| > 0 && toks[0].kind == OpeningBracket && toks[|toks| - 1].kind == ClosingBracket
  }

  /** A key at index `i` preceded (cyclically) by an opening bracket or
      separator and followed by a colon. */
  predicate WellPlacedKey(toks: seq<Token>, i: nat) {
    && i + 1 < |toks|
    && toks[i].kind == Key
    && OpensKey(toks[Prev(|toks|, i)].kind)
    && toks[i + 1].kind == Colon
  }

  /** The last token is a key whose predecessor passes the test, so the source
      reads `tokens[i + 1]` past the end. */
  predicate KeyRunsOffEnd(toks: seq<Token>) {
    |toks| > 0
    && toks[|toks| - 1].kind == Key
    && OpensKey(toks[Prev(|toks|, |toks| - 1)].kind)
  }

  /** The loop from index `i` on. The whole-document test does not depend on
      `i`, so it is made once, before the loop (ParseError). The test for a
      value token sits inside the key branch and can never succeed, so it is
      absent here. */
  function ScanKeys(toks: seq<Token>, i: nat): (r: Result<int, Error>)
    requires i <= |toks|
    decreases |toks| - i
    ensures r == Ok(0) <==> exists k :: i <= k < |toks| && WellPlacedKey(toks, k)
    ensures r.Err? <==>
      (forall k :: i <= k < |toks| ==> !WellPlacedKey(toks, k)) && i < |toks| && KeyRunsOffEnd(toks)
    ensures r == Ok(0) || r == Ok(1) || r == Err(TokenIndexOutOfRange)
  {
    if i == |toks| then Ok(1)
    else if toks[i].kind == Key && OpensKey(toks[Prev(|toks|, i)].kind) then
      if i + 1 == |toks| then Err(TokenIndexOutOfRange)
      else if toks[i + 1].kind == Colon then assert WellPlacedKey(toks, i); Ok(0)
      else ScanKeys(toks, i + 1)
    else ScanKeys(toks, i + 1)
  }

  /** Return code 0 (accept) or 1 (reject); a key in last position after an
      opening bracket or separator is the source's IndexError. The three
      outcomes are stated without the loop. */
  function ParseError(toks: seq<Token>): (r: Result<int, Error>)
    ensures r == Ok(0) <==>
      Framed(toks) || exists k :: 0 <= k < |toks| && WellPlacedKey(toks, k)
    ensures r == Err(TokenIndexOutOfRange) <==>
      !Framed(toks) && (forall k :: 0 <= k < |toks| ==> !WellPlacedKey(toks, k)) && KeyRunsOffEnd(toks)
    ensures r == Ok(1) <==>
      !Framed(toks) && (forall k :: 0 <= k < |toks| ==> !WellPlacedKey(toks, k)) && !KeyRunsOffEnd(toks)
  {
    if |toks| == 0 then Ok(1)
    else if Framed(toks) then Ok(0)
    else ScanKeys(toks, 0)
  }

  /** Only the two-token document `[opening, closing]` passes with two tokens. */
  lemma TwoTokensPassOnlyWhenFramed(toks: seq<Token>)
    requires |toks| == 2 && ParseError(toks) == Ok(0)
    ensures toks[0].kind == OpeningBracket && toks[1].kind == ClosingBracket
  {
    assert !WellPlacedKey(toks, 0) && !WellPlacedKey(toks, 1);
  }

  function Tok(kind: Kind): Token {
    Token([], kind, None, 0, 0)
  }

  /** A value between a colon and a separator, with no key and no enclosing
      brackets, is rejected: the value test is never reached. A key at index 0
      is accepted because its predecessor is read cyclically from the end. */
  lemma ParseErrorQuirks()
    ensures ParseError([Tok(Colon), Tok(Value), Tok(Separator)]) == Ok(1)
    ensures ParseError([Tok(Key), Tok(Colon), Tok(Value), Tok(Separator)]) == Ok(0)
    ensures ParseError([Tok(Separator), Tok(Key)]) == Err(TokenIndexOutOfRange)
    ensures ParseError([]) == Ok(1)
  {
    var bad := [Tok(Colon), Tok(Value), Tok(Separator)];
    assert !WellPlacedKey(bad, 0) && !WellPlacedKey(bad, 1) && !WellPlacedKey(bad, 2);
    var wrap := [Tok(Key), Tok(Colon), Tok(Value), Tok(Separator)];
    assert WellPlacedKey(wrap, 0);
    var off := [Tok(Separator), Tok(Key)];
    assert !WellPlacedKey(off, 0) && !WellPlacedKey(off, 1);
  }
}

=== FILE: value_types.dfy ===
/** check_type: the first-match classifier the lexer applies to value text. */
module ValueTypes {
  import opened Text

  datatype ValueType = Numeric | Boolean | Object | List | NoneType | StringType

  predicate IsBoolWord(s: string) {
    Lower(s) == "true" || Lower(s) == "false"
  }

  predicate IsNullWord(s: string) {
    Lower(s) == "null"
  }

  /** At least two characters, `open` first and `close` last. */
  predicate Wrapped(s: string, open: char, close: char) {
    |s| >= 2 && s[0] == open && s[|s| - 1] == close
  }

  /** The six tests are tried in the source's order, but no text passes two of
      them, so each class is exactly the text its own test accepts. */
  function CheckType(s: string): (r: ValueType)
    ensures r == Numeric <==> IsDigits(s)
    ensures r == Boolean <==> IsBoolWord(s)
    ensures r == Object <==> Wrapped(s, '{', '}')
    ensures r == List <==> Wrapped(s, '[', ']')
    ensures r == NoneType <==> IsNullWord(s)
    ensures r == StringType <==>
      !IsDigits(s) && !IsBoolWord(s) && !Wrapped(s, '{', '}') && !Wrapped(s, '[', ']') && !IsNullWord(s)
  {
    WordsAreLetters(s);
    if IsDigits(s) then Numeric
    else if IsBoolWord(s) then Boolean
    else if Wrapped(s, '{', '}') then Object
    else if Wrapped(s, '[', ']') then List
    else if IsNullWord(s) then NoneType
    else StringType
  }

  /** The keyword tests only pass text that starts with a letter. */
  lemma WordsAreLetters(s: string)
    ensures IsBoolWord(s) || IsNullWord(s) ==> |s| >= 4 && 'a' <= LowerChar(s[0]) <= 'z'
    ensures IsBoolWord(s) ==> !IsNullWord(s)
  {
    if IsBoolWord(s) || IsNullWord(s) {
      assert Lower(s)[0] == LowerChar(s[0]);
    }
  }

  /** Classification ignores ASCII case. */
  lemma CheckTypeIgnoresCase(s: string)
    ensures CheckType(Lower(s)) == CheckType(s)
  {
    LowerIdempotent(s);
    LowerKeepsDigits(s);
  }

  /** Text of fewer than four characters is never a keyword. */
  lemma ShortTextIsNoWord(s: string)
    requires |s| < 4
    ensures !IsBoolWord(s) && !IsNullWord(s)
  {
    assert |Lower(s)| == |s|;
  }

  /** Representative texts of the numeric, boolean, object, list and none
      classes. */
  lemma CheckTypeExamples()
    ensures CheckType("123") == Numeric
    ensures CheckType("true") == Boolean && CheckType("FALSE") == Boolean
    ensures CheckType("{}") == Object
    ensures CheckType("[]") == List
    ensures CheckType("null") == NoneType && CheckType("NULL") == NoneType
  {
    assert Lower("true") == "true";
    assert Lower("FALSE") == "false";
    assert Lower("null") == "null";
    assert Lower("NULL") == "null";
    ShortTextIsNoWord("{}");
    ShortTextIsNoWord("[]");
  }

  /** Signed, fractional and quoted text, and the empty text, are strings. */
  lemma CheckTypeStringExamples()
    ensures CheckType("") == StringType
    ensures CheckType("-1") == StringType && CheckType("1.5") == StringType
    ensures CheckType("\"x\"") == StringType
  {
    ShortTextIsNoWord("-1");
    assert !IsDigits("-1") by { assert !IsDigit("-1"[0]); }
    ShortTextIsNoWord("1.5");
    assert !IsDigits("1.5") by { assert !IsDigit("1.5"[1]); }
    ShortTextIsNoWord("\"x\"");
    assert !IsDigits("\"x\"") by { assert !IsDigit("\"x\""[0]); }
    ShortTextIsNoWord("");
  }
}

=== FILE: whitespace.dfy ===
/** remove_whitespace: drop whitespace that lies outside double-quoted text,
    judged by the parity of the double quotes that FOLLOW each character (the
    regular expression's lookahead), not by a scan from the left. */
module Whitespace {
  import opened Text

  /** Python's `\s` over ASCII: tab, line feed, vertical tab, form feed,
      carriage return, the four separator controls 28-31, and space. */
  predicate IsSpace(c: char) {
    var n := c as int;
    (9 <= n <= 13) || (28 <= n <= 31) || n == 32
  }

  function CountQuotes(s: string): nat {
    CountChar(s, '"')
  }

  predicate Even(n: nat) {
    n % 2 == 0
  }

  /** The characters of `s` that are not whitespace, in order. */
  function NonSpace(s: string): (r: string)
    ensures forall k :: 0 <= k < |r| ==> !IsSpace(r[k])
  {
    if s == [] then [] else (if IsSpace(s[0]) then [] else [s[0]]) + NonSpace(s[1..])
  }

  /** The regular-expression substitution, one character at a time: the
      character at the front is dropped exactly when it is whitespace and an
      even number of '"' follow it. */
  function RemoveWhitespace(s: string): (r: string)
    ensures |r| <= |s|
    ensures CountQuotes(r) == CountQuotes(s)
    ensures NonSpace(r) == NonSpace(s)
  {
    if s == [] then []
    else
      var rest := RemoveWhitespace(s[1..]);
      var head := if IsSpace(s[0]) && Even(CountQuotes(s[1..])) then [] else [s[0]];
      CountCharAppend(head, rest, '"');
      NonSpaceAppend(head, rest);
      head + rest
  }

  lemma {:induction false} NonSpaceAppend(a: string, b: string)
    ensures NonSpace(a + b) == NonSpace(a) + NonSpace(b)
  {
    if a == [] {
      assert a + b == b;
    } else {
      assert (a + b)[1..] == a[1..] + b;
      NonSpaceAppend(a[1..], b);
    }
  }

  /** A left-to-right scanner that remembers whether it is inside a quoted
      string and drops whitespace only outside one. */
  function StripOutsideStrings(s: string, inString: bool): string {
    if s == [] then []
    else
      var inString' := if s[0] == '"' then !inString else inString;
      (if IsSpace(s[0]) && !inString then [] else [s[0]]) + StripOutsideStrings(s[1..], inString')
  }

  /** The lookahead rule is the left-to-right scanner started in the state the
      total quote parity dictates. */
  lemma {:induction false} RemoveWhitespaceIsScan(s: string)
    ensures RemoveWhitespace(s) == StripOutsideStrings(s, !Even(CountQuotes(s)))
  {
    if s != [] {
      RemoveWhitespaceIsScan(s[1..]);
      assert s == [s[0]] + s[1..];
      CountCharAppend([s[0]], s[1..], '"');
      var q := CountQuotes(s[1..]);
      assert CountQuotes(s) == q + (if s[0] == '"' then 1 else 0);
      var inString := !Even(CountQuotes(s));
      var inString' := if s[0] == '"' then !inString else inString;
      assert inString' == !Even(q);
      assert IsSpace(s[0]) ==> s[0] != '"' && inString == !Even(q);
    }
  }

  /** With balanced quotes the substitution is exactly "remove whitespace
      outside string literals". */
  lemma BalancedQuotesStripOutside(s: string)
    requires Even(CountQuotes(s))
    ensures RemoveWhitespace(s) == StripOutsideStrings(s, false)
  {
    RemoveWhitespaceIsScan(s);
  }

  /** The quote-parity rule misreads text with an unbalanced quote: one stray
      quote flips which whitespace counts as inside a string. */
  lemma UnbalancedQuoteDropsQuotedSpace()
    ensures RemoveWhitespace("\" a") == "\"a"
    ensures StripOutsideStrings("\" a", false) == "\" a"
  {
    assert "\" a"[1..] == " a";
    assert " a"[1..] == "a";
    assert "a"[1..] == [];
    assert CountQuotes("a") == 0;
    assert CountQuotes(" a") == 0;
    assert StripOutsideStrings("a", true) == "a";
    assert StripOutsideStrings(" a", true) == " a";
  }

  /** Every whitespace character that survives has an odd number of quotes
      after it, i.e. it sits inside a quoted string. */
  predicate SpacesQuoted(s: string) {
    forall k :: 0 <= k < |s| && IsSpace(s[k]) ==> !Even(CountQuotes(s[k + 1..]))
  }

  lemma {:induction false} SurvivingSpaceIsQuoted(s: string)
    ensures SpacesQuoted(RemoveWhitespace(s))
  {
    if s != [] {
      var rest := RemoveWhitespace(s[1..]);
      var r := RemoveWhitespace(s);
      SurvivingSpaceIsQuoted(s[1..]);
      var head := if IsSpace(s[0]) && Even(CountQuotes(s[1..])) then [] else [s[0]];
      assert r == head + rest;
      forall k | 0 <= k < |r| && IsSpace(r[k])
        ensures !Even(CountQuotes(r[k + 1..]))
      {
        if k < |head| {
          assert r[k + 1..] == rest;
          assert CountQuotes(rest) == CountQuotes(s[1..]);
        } else {
          var j := k - |head|;
          assert r[k] == rest[j];
          assert r[k + 1..] == rest[j + 1..];
        }
      }
    }
  }

  /** Text whose whitespace is all quoted is left alone. */
  lemma {:induction false} RemoveWhitespaceFixed(s: string)
    requires SpacesQuoted(s)
    ensures RemoveWhitespace(s) == s
  {
    if s != [] {
      forall k | 0 <= k < |s[1..]| && IsSpace(s[1..][k])
        ensures !Even(CountQuotes(s[1..][k + 1..]))
      {
        assert s[1..][k] == s[k + 1];
        assert s[1..][k + 1..] == s[k + 2..];
      }
      assert IsSpace(s[0]) ==> !Even(CountQuotes(s[1..]));
      RemoveWhitespaceFixed(s[1..]);
      assert s == [s[0]] + s[1..];
    }
  }

  lemma RemoveWhitespaceIdempotent(s: string)
    ensures RemoveWhitespace(RemoveWhitespace(s)) == RemoveWhitespace(s)
  {
    SurvivingSpaceIsQuoted(s);
    RemoveWhitespaceFixed(RemoveWhitespace(s));
  }
}

=== FILE: wrappers.dfy ===
/** Option and Result, the failure-carrying shapes used by the decoder model. */
module Wrappers {

  datatype Option<+T> = None | Some(value: T)

  datatype Result<+R, +E> = Ok(value: R) | Err(error: E)
}

/** The ways a decode can stop. The source ends the process (sys.exit) or lets an
    exception escape; here each becomes a distinct error value. */
module Errors {

  datatype Error =
    | InvalidFileExtension    // read_json: argument does not end in ".json"
    | StructuralParseError    // value_parse: parse_error returned 1
    | NumericConversionError  // parse_string: int() of non-digit text (float fallback left out)
    | TokenIndexOutOfRange    // parse_error: tokens[i + 1] past the end (Python IndexError)
}
